=== FILE: README.md ===
# La Fe Score, modelled in Dafny

La Fe Score is a small scoreboard system. It has three parts:

- a React Native client, where an admin opens a category, creates match sections and edits their scores;
- a Flask backend, which stores the sections behind HTTP basic authentication with an admin flag;
- a separate Kotlin practice file with a few integer classifiers.

This project models the parts of that system that carry rules. Every operation is a pure function, or a short method, over immutable data.

| file | module | what it models |
|---|---|---|
| `wrappers.dfy` | `Wrappers` | `Option`, used for missing JSON keys, failed lookups and NaN |
| `digits.dfy` | `Digits` | ASCII decimal digit strings, their value, and the decimal rendering of a natural number |
| `categories.dfy` | `Categories` | the home screen's category table, the athletics prefix, and the number of positions per event |
| `sections.dfy` | `Sections` | the `Section` row, a JSON body as a record of present keys, the constructor with column defaults, and the key-by-key update |
| `section_store.dfy` | `SectionStore` | the section routes and the finished listing, as transitions of a `map<int, Section>` behind an admin gate |
| `users.dfy` | `UserRegistry` | the user table keyed by email, registration, the credential check, and login; hashing is an opaque function pair |
| `js_parse.dfy` | `JsParseInt` | JavaScript's `parseInt(text, 10) \|\| 0` on exact integers |
| `category_screen.dfy` | `CategoryScreen` | the category screen: the code filter, the position normaliser, the save button, the request bodies, the finished-lock on controls, and how the list follows server answers |
| `scoreboard.dfy` | `Scoreboard` | the static scoreboard grouping |
| `pruebas.dfy` | `Pruebas` | the Kotlin `resta`, `probandoWhen`, `verificadorEdad` and `toIntOrNull() ?: 0` |

Modelling choices:

- **Server answers are inputs.** The client's screen functions take a `Response`, which is either `Threw` or a status with the section record its body holds (`None` when the body is not JSON at all; a JSON body is taken to be a section record). Each request is atomic.
- **The caller is an input.** The backend takes the authenticated caller as `Option<User>`; `None` stands for a request the login check refused (401). Which credentials pass that check is modelled separately (`SectionStore.RouteCaller`, `SectionStore.RouteCallerAsWritten`).
- **The database supplies the id.** A create receives the fresh id as a parameter, with the precondition that the store does not hold it. It also receives the insertion time as a parameter.
- **Dates are abstract.** Timestamps are plain integers, because only their order matters.
- **Behaviours the code has, stated as they are:**
  - scores have no upper bound;
  - a typed score is sent unclamped, so it may be negative;
  - the two team codes may be equal;
  - the finished-lock exists only on the client's controls, because the update route writes every key it receives (`Sections.NoFinishedLock`, `SectionStore.FinishedSectionsStayEditable`).
- **Refusal codes.** An unauthenticated call gets 401 before the admin check, and a non-admin gets 403. Both come before the id lookup, so a non-admin never sees a 404.
- **Two routes are modelled twice.** The create and update routes, as they stand, commit their change and then fail while building the reply (see Findings). `SectionStore.CreateAsWritten` and `SectionStore.UpdateAsWritten` model them that way. `SectionStore.Create` and `SectionStore.Update` model the intended 201 and 200 answers, and the rest of the model uses those.

## Model

Paths are relative to the repository root.

| member | source | states |
|---|---|---|
| Categories.PositionsCount | Proyecto/fe-score/screens/CategoryScreen.jsx:25-29 | the count is 8 exactly for the marathon key, 4 exactly for the sprint key, 3 exactly for the relay key, and 0 for every other key; a non-zero count implies an athletics key |
| Categories.Classify | Proyecto/fe-score/screens/CategoryScreen.jsx:24-29 | a key is athletics iff it starts with `atletismo_`, and an athletics kind carries that key's position count; a team key has no positions |
| Categories.UnknownAthleticsHasNoPositions | Proyecto/fe-score/screens/CategoryScreen.jsx:24-29 | every athletics key other than the marathon, sprint and relay keys is athletics with zero positions |
| Categories.JumpHasNoPositions | Proyecto/fe-score/screens/CategoryScreen.jsx:24-29 | the jump key `atletismo_salto` is athletics with zero positions |
| Categories.CatalogueKinds | Proyecto/fe-score/components/Main.jsx:24-37 | in the home table exactly entries 4–6 are athletics, each with at least three positions |
| CategoryScreen.Upper | Proyecto/fe-score/screens/CategoryScreen.jsx:60 | upper-casing keeps the length and maps each character on its own |
| CategoryScreen.KeepCodeChars | Proyecto/fe-score/screens/CategoryScreen.jsx:248 | the filter never lengthens the text and keeps only the digits 1–6 and the letters a, b |
| CategoryScreen.KeepCodeCharsOne | Proyecto/fe-score/screens/CategoryScreen.jsx:248 | a single character is kept, in its lower-case form, exactly when that form is a code character, and dropped otherwise; with `KeepCodeCharsAppend` this fixes the filter's output on every text |
| CategoryScreen.ValidateCode | Proyecto/fe-score/screens/CategoryScreen.jsx:248 | the result is a code of at most two code characters; it is a prefix of the filtered text and is cut only when that text is longer than two |
| CategoryScreen.KeepCodeCharsOfCode | Proyecto/fe-score/screens/CategoryScreen.jsx:248 | text made only of code characters passes the filter unchanged |
| CategoryScreen.KeepCodeCharsAppend | Proyecto/fe-score/screens/CategoryScreen.jsx:248 | the filter works character by character: filtering a concatenation concatenates the filtered parts |
| CategoryScreen.ValidateCodeFixedPoints | Proyecto/fe-score/screens/CategoryScreen.jsx:248 | the filter returns its input unchanged iff the input is already a code |
| CategoryScreen.ValidateCodeIdempotent | Proyecto/fe-score/screens/CategoryScreen.jsx:248 | applying the filter to its own output changes nothing |
| CategoryScreen.ValidateCodeFull | Proyecto/fe-score/screens/CategoryScreen.jsx:248 | once the filtered text holds two characters, appending more text leaves the code as it is |
| CategoryScreen.ValidateCodeExamples | Proyecto/fe-score/screens/CategoryScreen.jsx:248 | "1A" becomes "1a", "7x3B9" becomes "3b", and the empty text stays empty |
| CategoryScreen.NormalizePosition | Proyecto/fe-score/screens/CategoryScreen.jsx:305-310 | a position input holds at most two characters: the upper-cased first characters of the typed text |
| CategoryScreen.NormalizePositionIdempotent | Proyecto/fe-score/screens/CategoryScreen.jsx:305-310 | normalising again changes nothing, and upper-casing a normalised position changes nothing either |
| CategoryScreen.InitialForm | Proyecto/fe-score/screens/CategoryScreen.jsx:33-36 | a fresh form has empty codes, gender "femenino", and one empty slot per event position |
| CategoryScreen.EditCode | Proyecto/fe-score/screens/CategoryScreen.jsx:319-332 | typing into a code field stores the filtered text in that field, which is a valid code, and changes no other field |
| CategoryScreen.EditPosition | Proyecto/fe-score/screens/CategoryScreen.jsx:305-310 | typing into one slot stores the normalised text there and keeps every other slot and field |
| CategoryScreen.AnyEmpty | Proyecto/fe-score/screens/CategoryScreen.jsx:341 | true iff some position is the empty string |
| CategoryScreen.SaveEnabledIff | Proyecto/fe-score/screens/CategoryScreen.jsx:341 | for athletics, save is enabled iff every position is non-empty; otherwise it is enabled iff both codes have exactly two characters |
| CategoryScreen.MissingPositionDisablesSave | Proyecto/fe-score/screens/CategoryScreen.jsx:341 | a relay form with an empty second place cannot be saved |
| CategoryScreen.EqualCodesEnableSave | Proyecto/fe-score/screens/CategoryScreen.jsx:341 | two equal codes still enable save: the codes are never compared |
| CategoryScreen.InitialFormSave | Proyecto/fe-score/screens/CategoryScreen.jsx:35 | a freshly opened form can be saved iff its key is athletics with no positions |
| CategoryScreen.EnabledTeamFormHoldsCodes | Proyecto/fe-score/screens/CategoryScreen.jsx:323-341 | an enabled team form filled through the filter holds two valid two-character codes |
| CategoryScreen.UpperAll | Proyecto/fe-score/screens/CategoryScreen.jsx:60 | every position is upper-cased and the count is kept |
| CategoryScreen.Payload | Proyecto/fe-score/screens/CategoryScreen.jsx:59-61 | athletics sends exactly gender and the upper-cased positions, in the same number; other categories send exactly both codes and two zero scores; neither sends category, finished or date |
| CategoryScreen.PayloadCreatesOpenSection | Proyecto/fe-score/screens/CategoryScreen.jsx:59-61 | the server builds from the payload an unfinished 0–0 section of the screen's category, holding the form's codes or its positions and gender |
| CategoryScreen.NormalizedPositionsSentAsIs | Proyecto/fe-score/screens/CategoryScreen.jsx:308 | positions typed through the input reach the payload unchanged by its second upper-casing |
| CategoryScreen.ScoreBody | Proyecto/fe-score/screens/CategoryScreen.jsx:131 | a score body sets exactly the key of the chosen side |
| CategoryScreen.Stepped | Proyecto/fe-score/screens/CategoryScreen.jsx:132 | the stepped score is never negative and is either old + delta or 0 |
| CategoryScreen.ToggleBody | Proyecto/fe-score/screens/CategoryScreen.jsx:119 | the flag button sends the negated flag and the current time as its only two keys, so the server changes nothing else |
| CategoryScreen.StepBody | Proyecto/fe-score/screens/CategoryScreen.jsx:130-141 | a step sends a body whose only key is the pressed side's score, set to the stepped value of that side's current score |
| CategoryScreen.DirectBody | Proyecto/fe-score/screens/CategoryScreen.jsx:152-163 | typing a score sends a body whose only key is that side's score, set to the typed text read by `parseInt` with NaN as 0 |
| CategoryScreen.TypedScoreIsStored | Proyecto/fe-score/screens/CategoryScreen.jsx:152-163 | a score typed as a plain decimal number is stored as that number on that side, and the other side and the flag are unchanged |
| CategoryScreen.StepOnServer | Proyecto/fe-score/screens/CategoryScreen.jsx:130-145 | after the server applies a step, that side is max(0, old + delta); the other side, the flag and the category are unchanged |
| CategoryScreen.StepBounds | Proyecto/fe-score/screens/CategoryScreen.jsx:132 | "+" always adds one (no upper bound), and "-" at zero stays at zero |
| CategoryScreen.DirectEditCanBeNegative | Proyecto/fe-score/screens/CategoryScreen.jsx:152-163 | typing a minus and a non-zero digit stores that negative number |
| CategoryScreen.ToggleTwice | Proyecto/fe-score/screens/CategoryScreen.jsx:119 | one toggle negates the flag; two toggles restore the section except for its date |
| CategoryScreen.ControlsFor | Proyecto/fe-score/screens/CategoryScreen.jsx:192-237 | a team card shows the flag and delete buttons, whose availability does not depend on the flag; score buttons and inputs are enabled iff the card is a team card and unfinished; position inputs are editable iff the card is athletics and unfinished |
| CategoryScreen.RequestBody | Proyecto/fe-score/screens/CategoryScreen.jsx:87-163 | delete sends no body; the flag sends the toggle body, a step the step body for its side and delta, and typing the typed-score body for its side and text |
| CategoryScreen.FinishedLock | Proyecto/fe-score/screens/CategoryScreen.jsx:194-237 | on a finished card only the flag and delete are available, and no request they make carries a score; the flag sends finished = false |
| CategoryScreen.ToggleAlwaysAvailable | Proyecto/fe-score/screens/CategoryScreen.jsx:194-223 | the flag and delete are available on every team card, while a score step or a typed score, on either side, is available iff the card is unfinished |
| CategoryScreen.AfterLoad | Proyecto/fe-score/screens/CategoryScreen.jsx:42-47 | a successful load replaces the list, and a failed one keeps it |
| CategoryScreen.AfterCreate | Proyecto/fe-score/screens/CategoryScreen.jsx:73-75 | an ok answer whose body is a record appends exactly that record after the old list; any other answer leaves the list unchanged |
| CategoryScreen.ReplaceId | Proyecto/fe-score/screens/CategoryScreen.jsx:123 | the length is kept, records with the id become the returned record, and every other record stays at its index |
| CategoryScreen.AfterUpdate | Proyecto/fe-score/screens/CategoryScreen.jsx:121-123 | an ok update or toggle answer whose body is a record replaces in place; any other answer leaves the list unchanged |
| CategoryScreen.ReplaceUnique | Proyecto/fe-score/screens/CategoryScreen.jsx:123 | with unique ids, a replace is a point update at the one matching index, and ids stay unique when the record keeps its id |
| CategoryScreen.ReplaceAbsent | Proyecto/fe-score/screens/CategoryScreen.jsx:123 | replacing an id the list does not hold changes nothing |
| CategoryScreen.CountId | Proyecto/fe-score/screens/CategoryScreen.jsx:95 | the count is the multiplicity of the id among the list's ids in order: at most the length, and zero exactly when the id is absent |
| CategoryScreen.RemoveId | Proyecto/fe-score/screens/CategoryScreen.jsx:95 | the result drops exactly the records with the id: its length falls by their count, and every other record of the list is kept |
| CategoryScreen.AfterDelete | Proyecto/fe-score/screens/CategoryScreen.jsx:94-95 | only a 204 removes anything, whatever its body; any other status or a thrown request leaves the list unchanged |
| CategoryScreen.RemoveAbsent | Proyecto/fe-score/screens/CategoryScreen.jsx:95 | deleting an absent id changes nothing |
| CategoryScreen.RemoveUnique | Proyecto/fe-score/screens/CategoryScreen.jsx:95 | with unique ids, deleting the id at index k gives the list without index k, with the rest in order |
| CategoryScreen.DeleteMiddle | Proyecto/fe-score/screens/CategoryScreen.jsx:94-95 | deleting the middle of three records leaves the outer two in order after a 204, and all three after a 200 |
| CategoryScreen.AfterSave | Proyecto/fe-score/screens/CategoryScreen.jsx:73-80 | after an ok create answer holding a record, the record is appended, the modal closes and the form is reset; after any other answer the screen is unchanged |
| Sections.Apply | Proyecto/backend/routes/sections.py:37-38 | each column takes the body's value when the key is present and keeps its value otherwise; the id never changes |
| Sections.NewSection | Proyecto/backend/models.py:12-24 | a new row has the given id and the URL category; a column the payload omits takes its default: unfinished, scores 0, date = insertion time, the others empty; the row is the update of a blank row by the payload |
| Sections.Merge | Proyecto/backend/routes/sections.py:37-38 | an empty body is the identity of merging, on either side |
| Sections.ApplyEmpty | Proyecto/backend/routes/sections.py:37-38 | an empty body changes nothing |
| Sections.ApplyIdempotent | Proyecto/backend/routes/sections.py:37-38 | applying the same body twice is the same as once |
| Sections.ApplyMerge | Proyecto/backend/routes/sections.py:37-38 | two updates in a row equal one update with the merged body |
| Sections.CreateThenUpdate | Proyecto/backend/routes/sections.py:25-38 | updating a fresh row equals creating it from the merged payload |
| Sections.NoFinishedLock | Proyecto/backend/routes/sections.py:37-38 | a finished row still takes a new score and stays finished |
| SectionStore.Gate | Proyecto/backend/routes/sections.py:19-23 | a caller passes iff it is an admin; a missing caller (`None`) gets 401, and any other refusal is 403 |
| SectionStore.Create | Proyecto/backend/routes/sections.py:18-28 | the create route as intended (see Findings): a missing caller gets 401 and a logged-in non-admin 403; a refused caller or a payload with a category key leaves the store unchanged; 201 happens exactly for an admin with a valid payload, adding one section under the fresh id, built from the URL category and the payload, with every other section unchanged |
| SectionStore.Update | Proyecto/backend/routes/sections.py:30-40 | the update route as intended (see Findings): the keys are never changed; a missing caller gets 401 and a logged-in non-admin 403, and an admin gets 404 for an unknown id, each with no change; 200 happens exactly for an admin and a known id, rewriting only that section with the body's keys |
| SectionStore.Delete | Proyecto/backend/routes/sections.py:42-51 | a missing caller gets 401, a logged-in non-admin 403 and an admin asking for an unknown id 404, each with no change; 204 happens exactly for an admin and a known id, removing that id alone |
| SectionStore.FinishedSectionsStayEditable | Proyecto/backend/routes/sections.py:30-40 | an admin's score update on a finished section is written and keeps it finished, both in the route as intended (which answers 200) and in the route as it stands (which answers 500 after writing) |
| SectionStore.CreateAsWritten | Proyecto/backend/routes/sections.py:18-28 | the create route as it stands: a missing caller gets 401 and a logged-in non-admin 403, with no change; an admin always gets 500 and never 201 or a record; a valid payload is nevertheless stored under the fresh id, and a payload with a category key is not |
| SectionStore.UpdateAsWritten | Proyecto/backend/routes/sections.py:30-40 | the update route as it stands: a missing caller gets 401, a logged-in non-admin 403 and an unknown id 404, as intended; an admin's update of a known id is written and answered with 500, never 200 or a record |
| SectionStore.CreateCommitsThenFails | Proyecto/backend/routes/sections.py:25-28 | for an admin and a valid payload the route as it stands leaves the same store as the intended one, with the new row in it, but answers 500 where the intended one answers 201 with that row |
| SectionStore.UpdateCommitsThenFails | Proyecto/backend/routes/sections.py:37-40 | for an admin and a known id the route as it stands leaves the same store as the intended one but answers 500 where the intended one answers 200 with the row |
| SectionStore.RouteCaller | Proyecto/backend/routes/auth.py:9-13 | the caller the section routes should see: a user comes back iff the email is registered and the password checks against its hash, it is that email's user, and it is an admin iff that user is |
| SectionStore.RouteCallerAsWritten | Proyecto/backend/routes/sections.py:10 | the caller the section routes see as they stand: never an admin, and always refused with 401 |
| SectionStore.NoAdminReachesSectionRoutes | Proyecto/backend/routes/sections.py:10-51 | as shipped, even a registered admin with the right password gets 401 from create, update and delete, with the store unchanged |
| SectionStore.AdminReachesSectionRoutes | Proyecto/backend/routes/sections.py:18-51 | with the registry's check wired in, that admin passes the gate: a valid create gets 201, and an update and a delete of a stored id get 200 and 204 |
| SectionStore.CreateThenDelete | Proyecto/backend/routes/sections.py:18-51 | deleting a section just created returns 204 and gives back the original store |
| SectionStore.Insert | Proyecto/backend/routes/sections.py:14 | inserting into a date-sorted sequence keeps it sorted, and the result holds the old elements plus the new one, each as often as before (as a multiset) |
| SectionStore.InsertIds | Proyecto/backend/routes/sections.py:14 | the inserted sequence holds exactly the old ids plus the new one |
| SectionStore.InsertUnique | Proyecto/backend/routes/sections.py:14 | inserting a section with a new id keeps the ids unique |
| SectionStore.Select | Proyecto/backend/routes/sections.py:14 | the result is date-sorted, holds every matching row of the store exactly once, and holds nothing else |
| SectionStore.ListSections | Proyecto/backend/routes/sections.py:12-16 | the listing is in ascending date order and holds exactly the stored sections of the URL category, each once |
| SectionStore.AllFinished | Proyecto/backend/routes/scores.py:8-11 | the listing is in descending date order and holds exactly the finished sections of every category, each once |
| UserRegistry.Register | Proyecto/backend/routes/auth.py:15-24 | a missing email is 500 and a known email is 400, before the password is read; a missing password is 500; 201 happens exactly otherwise, adding one user with the hash of the password and admin = false unless the body says so; every failure leaves the registry unchanged |
| UserRegistry.Verify | Proyecto/backend/routes/auth.py:9-13 | a user comes back iff the email is registered and the password checks against the stored hash, and it is that email's user |
| UserRegistry.Login | Proyecto/backend/routes/auth.py:26-30 | a profile comes back iff the credentials verify, and it holds exactly that user's email and admin flag |
| UserRegistry.RegisterThenLogin | Proyecto/backend/routes/auth.py:15-30 | with a sound hasher, a new registration without an admin key succeeds, and its credentials then log in as a non-admin |
| UserRegistry.RegisterTwice | Proyecto/backend/routes/auth.py:17-19 | registering an email a second time gets 400, whatever the second request says |
| Digits.LeadingDigits | Proyecto/fe-score/screens/CategoryScreen.jsx:153 | the result is the longest digit prefix of the text |
| Digits.LeadingZero | app/src/main/java/com/Adagio/chambing/sintaxis/Pruebas.kt:21 | a leading zero leaves a digit string's value unchanged |
| JsParseInt.TrimStart | Proyecto/fe-score/screens/CategoryScreen.jsx:153 | the result is a suffix of the text that does not start with white space, and everything cut off is white space |
| JsParseInt.ParseSigned | Proyecto/fe-score/screens/CategoryScreen.jsx:153 | the result is NaN iff no digit follows the optional sign, and a negative result needs a minus sign |
| JsParseInt.ParseInt | Proyecto/fe-score/screens/CategoryScreen.jsx:153 | the result is NaN iff no digit follows the leading space and sign, and a negative result needs a minus sign |
| JsParseInt.IntOrZero | Proyecto/fe-score/screens/CategoryScreen.jsx:153 | NaN reads as 0, and any number reads as itself |
| JsParseInt.ParseDigits | Proyecto/fe-score/screens/CategoryScreen.jsx:153 | a digit run followed by a non-digit reads as the run's decimal value |
| JsParseInt.ParseNegativeDigits | Proyecto/fe-score/screens/CategoryScreen.jsx:153 | a minus sign before such a run gives the negated value |
| JsParseInt.ParseShow | Proyecto/fe-score/screens/CategoryScreen.jsx:153 | a rendered natural number reads back as itself, whatever non-digit text follows |
| JsParseInt.TrimSkipsSpace | Proyecto/fe-score/screens/CategoryScreen.jsx:153 | leading white space is stripped entirely |
| JsParseInt.ParseSkipsSpace | Proyecto/fe-score/screens/CategoryScreen.jsx:153 | leading white space does not change what is read |
| JsParseInt.NonNumericReadsZero | Proyecto/fe-score/screens/CategoryScreen.jsx:153 | text that starts with neither space, sign nor digit reads as 0 |
| JsParseInt.MinusIsKept | Proyecto/fe-score/screens/CategoryScreen.jsx:153 | a minus and a non-zero digit read as a negative number |
| Scoreboard.Groups | Proyecto/fe-score/screens/ScoresScreen.jsx:34-37 | one group per category, in order; each group's title is the label and its data is the table entry for the key, or empty |
| Scoreboard.ShownIff | Proyecto/fe-score/screens/ScoresScreen.jsx:34-36 | a match is on the board iff it is listed under the key of some category |
| Scoreboard.ShippedBoard | Proyecto/fe-score/screens/ScoresScreen.jsx:14-37 | with the shipped tables there are twelve groups, and only football, volleyball and chess have matches |
| Pruebas.Resta | app/src/main/java/com/Adagio/chambing/sintaxis/Pruebas.kt:16-18 | the result is a − b when that fits in a 32-bit Int, and always agrees with a − b modulo 2^32 |
| Pruebas.RestaExamples | app/src/main/java/com/Adagio/chambing/sintaxis/Pruebas.kt:16-18 | resta(8, 9) is −1, and the smallest Int minus 1 wraps to the largest |
| Pruebas.ProbandoWhen | app/src/main/java/com/Adagio/chambing/sintaxis/Pruebas.kt:31-37 | some branch always fires: first semester iff 1–6, second iff 7–12, not a semester iff outside 1–12 |
| Pruebas.ExactlyOneBranch | app/src/main/java/com/Adagio/chambing/sintaxis/Pruebas.kt:32-36 | exactly one of the three conditions holds for every Int |
| Pruebas.VerificadorEdad | app/src/main/java/com/Adagio/chambing/sintaxis/Pruebas.kt:20-29 | adult iff ≥ 18, minor iff 1–17, invalid iff ≤ 0 |
| Pruebas.ToIntOrNull | app/src/main/java/com/Adagio/chambing/sintaxis/Pruebas.kt:21 | empty text is null, and any number read is an optional sign followed by at least one digit |
| Pruebas.ReadIntOrZero | app/src/main/java/com/Adagio/chambing/sintaxis/Pruebas.kt:21 | end of input and unreadable text both give 0; otherwise the number read |
| Pruebas.ToIntOrNullShow | app/src/main/java/com/Adagio/chambing/sintaxis/Pruebas.kt:21 | a rendered number up to Int's maximum, with or without a minus, reads back as itself, and a larger one reads as null |
| Pruebas.ReadsDigitValue | app/src/main/java/com/Adagio/chambing/sintaxis/Pruebas.kt:21 | digits, with no sign or a plus, read as their decimal value when it fits in Int and as null otherwise; after a minus they read as the negated value down to Int's minimum |
| Pruebas.SignAndLeadingZeros | app/src/main/java/com/Adagio/chambing/sintaxis/Pruebas.kt:21 | a plus sign and leading zeros, with or without a minus, do not change what is read |
| Pruebas.UnreadableIsInvalid | app/src/main/java/com/Adagio/chambing/sintaxis/Pruebas.kt:7-27 | unreadable input is no semester and no valid age |

## Left out

- Rendering, styling, navigation and alerts are presentation only. This includes the confirmation dialog before a delete (`CategoryScreen.jsx:102-107`): the model's delete is the confirmed one.
- `fetch`, `AsyncStorage` and the Basic authorization header are client I/O. Server answers are inputs.
- Overlapping requests and stale `sec` values captured by closures are concurrency. Every request is atomic here.
- Flask, SQLAlchemy, marshmallow, flask_httpauth and werkzeug hashing are libraries whose code is not part of this model.
  - The authenticated caller is an input.
  - The hash and its check are an opaque function pair, `Hasher`.
  - `sections.py:10` creates its own `HTTPBasicAuth`, and nothing registers a password callback on it. The callback at `auth.py:9-13` belongs to the login route's own object. Without a callback flask_httpauth authenticates nobody, so as shipped every create, update and delete answers 401 (see Findings). The library's code is not part of this model; the model follows the library's default of refusing every request when no callback is set.
- JSON bodies are records of optional typed fields. This model does not cover:
  - an `id` key;
  - keys that are not columns;
  - `null` values, ill-typed values, and bodies that are not objects.

  Only a `category` key in a create payload is modelled, as its duplicate-argument error (500).
- Column lengths (`String(2)`, `String(10)`), `PickleType` storage and the `nullable` checks are database details.
- The schema's field-by-field serialisation is not modelled. Where the intended create and update routes answer with a row, the model returns the stored row itself. The routes as they stand answer no row at all (see Findings).
- Timestamps are abstract integers. The client's `new Date().toISOString()` and the column default `datetime.utcnow` are a `now` parameter.
- `SectionStore.UpdateAsWritten`, `SectionStore.Update` and `CategoryScreen.ToggleTwice` write a toggle's `date` as given. On the default SQLite database (`config.py:18`), SQLAlchemy's `DateTime` column accepts only Python date objects, so the ISO string the flag button sends (`CategoryScreen.jsx:119`) would make that update fail before anything is written. Column type conversion is not modelled.
- `CategoryScreen.AfterCreate`, `CategoryScreen.AfterUpdate` and `CategoryScreen.AfterSave` take every JSON body to be a section record. A 2xx answer whose JSON body is not a section (for example `{}`) is parsed and then appended or put in place by the client, and that case is outside the model.
- The database allocates ids; the model receives the fresh id as a parameter.
- Rows with equal dates are listed in an order the database chooses. `SectionStore.Select` and the listings leave that order open.
- Case mapping covers only ASCII letters, so the model does not cover characters that change length or map outside ASCII when case-mapped, such as `ß`. For the code filter this changes nothing, since no non-ASCII character lower-cases into 1–6, a or b.
- `JsParseInt.ParseInt`: numbers are exact integers. Double rounding above 2^53, exponent output and `-0` being falsy do not change what the screen sends for ordinary scores.
- `Pruebas.ToIntOrNull` accepts only ASCII digits, where Kotlin also accepts other Unicode decimal digits. Its contract states the shape of what is read; `Pruebas.ReadsDigitValue` states the value read from any sign followed by digits, and `Pruebas.ToIntOrNullShow` and `Pruebas.SignAndLeadingZeros` relate that to the decimal rendering of each `Int`.
- `showMyName` and the `println` calls in `Pruebas.kt` only print. Each classifier returns what it would print.
- The position inputs on an athletics card have no change handler (`CategoryScreen.jsx:179-183`). `CategoryScreen.ControlsFor` records only whether they are editable.
- Keys inherited by JavaScript objects, such as `constructor`, are not modelled as entries of the finished-matches table.

## Findings

| source | as written | input that shows it | evidently intended | confidence | as-written member | corrected member |
|---|---|---|---|---|---|---|
| Proyecto/backend/routes/sections.py:25-28 | the row is committed, then the reply is built with `sec_schema.jsonify`, which `SectionSchema` does not have, because it derives from marshmallow's plain `Schema` (`schemas.py:1,7`) and no Flask-Marshmallow instance is set up; the request ends in 500 with the row stored | an admin's `POST /sections/futbol_masculino` with `{"codeA": "1a", "codeB": "2b", "scoreA": 0, "scoreB": 0}` | 201 with the stored row, which the client appends to its list (`CategoryScreen.jsx:73-75`) | high; not executed; reachable only once the route's authentication lets an admin in (third row) | SectionStore.CreateCommitsThenFails | SectionStore.Create |
| Proyecto/backend/routes/sections.py:37-40 | the same missing `jsonify` after the commit: the update is written, then the request ends in 500 | an admin's `PUT /sections/1` with `{"scoreA": 3}` when row 1 exists | 200 with the updated row, which the client puts in place (`CategoryScreen.jsx:121-123`) | high; not executed; reachable only once the route's authentication lets an admin in (third row) | SectionStore.UpdateCommitsThenFails | SectionStore.Update |
| Proyecto/backend/routes/sections.py:10 | the section routes guard with a new `HTTPBasicAuth` object that has no password callback; the callback that checks the user table (`auth.py:9-13`) is registered on the login route's separate object. Every create, update and delete therefore answers 401 | an admin registered through `POST /api/auth/register` with `is_admin` true, then `POST /sections/futbol_masculino` with that admin's correct credentials | the routes authenticate with the user table's check, so that admin reaches the admin test | medium; not executed; relies on flask_httpauth refusing every request when no callback is set | SectionStore.NoAdminReachesSectionRoutes | SectionStore.RouteCaller |

As shipped, the third row hides the first two: every section mutation is refused with 401 before its body runs. Once an admin does get through, the first two rows apply. The client's create and update handlers then see a failed answer and leave the list unchanged (`CategoryScreen.AfterCreate`, `CategoryScreen.AfterUpdate`), even though the server holds the change. The rest of the model uses the intended routes and takes the caller as an input.

=== FILE: categories.dfy ===
/** Sport categories: the table the home screen offers and the
    classification of a category key into a team (two codes, two scores)
    or an athletics (ranked positions) kind. */
module Categories {

  /** A table entry: its key and the label shown for it (`name` here, as
      `label` is a reserved word of Dafny). */
  datatype Category = Category(key: string, name: string)

  /** The category table of the home screen, in display order. */
  const Catalogue: seq<Category> := [
    Category("futbol", "Fútbol"),
    Category("beisbol5", "Béisbol 5"),
    Category("basketball", "Basketball"),
    Category("futenis", "Futénis"),
    Category("atletismo_velocidad", "Atletismo-Velocidad"),
    Category("atletismo_maraton", "Atletismo-Maratón"),
    Category("atletismo_relevo", "Atletismo-Relevo"),
    Category("vuelo_avion", "Vuelo de Avión"),
    Category("voleibol", "Voleibol"),
    Category("kickingball", "Kickingball"),
    Category("balonmano", "Balonmano"),
    Category("ajedrez", "Ajedrez")
  ]

  const AthleticsPrefix: string := "atletismo_"

  /** A category key names an athletics event when it starts with the athletics prefix. */
  predicate IsAthletics(key: string) {
    AthleticsPrefix <= key
  }

  /** How many ranked positions an athletics event records; zero for every other key. */
  function PositionsCount(key: string): (n: nat)
    ensures n in {0, 3, 4, 8}
    ensures n == 8 <==> key == "atletismo_maraton"
    ensures n == 4 <==> key == "atletismo_velocidad"
    ensures n == 3 <==> key == "atletismo_relevo"
    ensures n > 0 ==> IsAthletics(key)
  {
    if key == "atletismo_maraton" then 8
    else if key == "atletismo_velocidad" then 4
    else if key == "atletismo_relevo" then 3
    else 0
  }

  /** The shape of the sections a category holds. */
  datatype Kind = Team | Athletics(positions: nat)

  function Classify(key: string): (k: Kind)
    ensures k.Athletics? <==> IsAthletics(key)
    ensures k.Athletics? ==> k.positions == PositionsCount(key)
    ensures !IsAthletics(key) ==> PositionsCount(key) == 0
  {
    if IsAthletics(key) then Athletics(PositionsCount(key)) else Team
  }

  /** An athletics key outside the three known events records no position at all. */
  lemma UnknownAthleticsHasNoPositions(key: string)
    requires IsAthletics(key)
    requires key !in {"atletismo_maraton", "atletismo_velocidad", "atletismo_relevo"}
    ensures Classify(key) == Athletics(0)
  {
  }

  /** An instance: the jump key is athletics, with no positions to fill. */
  lemma JumpHasNoPositions()
    ensures Classify("atletismo_salto") == Athletics(0)
  {
    assert AthleticsPrefix <= "atletismo_salto";
  }

  /** Every athletics category of the table records at least three positions,
      and the other nine are team categories. */
  lemma CatalogueKinds()
    ensures forall i :: 0 <= i < |Catalogue| ==>
      (Classify(Catalogue[i].key).Athletics? <==> 4 <= i <= 6)
    ensures forall i :: 4 <= i <= 6 ==> Classify(Catalogue[i].key).positions >= 3
  {
    assert AthleticsPrefix <= Catalogue[4].key;
    assert AthleticsPrefix <= Catalogue[5].key;
    assert AthleticsPrefix <= Catalogue[6].key;
    forall i | 0 <= i < |Catalogue| && !(4 <= i <= 6)
      ensures !IsAthletics(Catalogue[i].key)
    {
      assert Catalogue[i].key[0] != 'a' || Catalogue[i].key[1] != 't';
    }
  }
}

=== FILE: category_screen.dfy ===
/** The rules inside the category screen of the mobile client: the team-code
    and position input filters, when "Guardar" is enabled, the body each
    button sends, which controls a finished section locks, and how the
    on-screen list follows the server's answers. Every request is atomic
    here; its answer is an input. */
module CategoryScreen {
  import opened Wrappers
  import opened Categories
  import opened Sections
  import opened JsParseInt

  // ----- text -----

  /** Case mapping of the ASCII letters; every other character is left alone. */
  function LowerChar(c: char): char {
    if 'A' <= c <= 'Z' then ((c as int) + 32) as char else c
  }

  function UpperChar(c: char): char {
    if 'a' <= c <= 'z' then ((c as int) - 32) as char else c
  }

  function Upper(s: string): (r: string)
    ensures |r| == |s|
    ensures forall i :: 0 <= i < |s| ==> r[i] == UpperChar(s[i])
  {
    seq(|s|, i requires 0 <= i < |s| => UpperChar(s[i]))
  }

  // ----- team codes -----

  /** The characters a team code may hold: the digits 1 to 6 and the letters a, b. */
  predicate IsCodeChar(c: char) {
    ('1' <= c <= '6') || c == 'a' || c == 'b'
  }

  /** What the code field can hold: at most two code characters. */
  predicate IsCode(s: string) {
    |s| <= 2 && forall i :: 0 <= i < |s| ==> IsCodeChar(s[i])
  }

  /** The code filter: every character is lower-cased, and only those that
      then are code characters stay, in their original order. */
  function KeepCodeChars(text: string): (r: string)
    ensures |r| <= |text|
    ensures forall i :: 0 <= i < |r| ==> IsCodeChar(r[i])
  {
    if |text| == 0 then []
    else
      var c := LowerChar(text[0]);
      (if IsCodeChar(c) then [c] else []) + KeepCodeChars(text[1..])
  }

  /** One character alone: kept, lower-cased, exactly when its lower-case
      form is a code character ("A" becomes "a", "7" and "c" vanish). */
  lemma KeepCodeCharsOne(c: char)
    ensures KeepCodeChars([c]) == if IsCodeChar(LowerChar(c)) then [LowerChar(c)] else []
  {
    assert [c][1..] == [];
  }

  /** `validateCode`: the filtered text cut to its first two characters. */
  function ValidateCode(text: string): (r: string)
    ensures IsCode(r)
    ensures r <= KeepCodeChars(text)
    ensures |r| == 2 || r == KeepCodeChars(text)
  {
    var kept := KeepCodeChars(text);
    if |kept| <= 2 then kept else kept[..2]
  }

  lemma {:induction false} KeepCodeCharsOfCode(s: string)
    requires forall i :: 0 <= i < |s| ==> IsCodeChar(s[i])
    ensures KeepCodeChars(s) == s
  {
    if |s| > 0 {
      assert LowerChar(s[0]) == s[0];
      KeepCodeCharsOfCode(s[1..]);
      assert s == [s[0]] + s[1..];
    }
  }

  lemma {:induction false} KeepCodeCharsAppend(s: string, t: string)
    ensures KeepCodeChars(s + t) == KeepCodeChars(s) + KeepCodeChars(t)
  {
    if |s| == 0 {
      assert s + t == t;
    } else {
      assert (s + t)[0] == s[0];
      assert (s + t)[1..] == s[1..] + t;
      KeepCodeCharsAppend(s[1..], t);
    }
  }

  /** The code filter accepts exactly the codes as they are. */
  lemma ValidateCodeFixedPoints(s: string)
    ensures ValidateCode(s) == s <==> IsCode(s)
  {
    if IsCode(s) {
      KeepCodeCharsOfCode(s);
    }
  }

  /** Filtering a filtered code changes nothing. */
  lemma ValidateCodeIdempotent(s: string)
    ensures ValidateCode(ValidateCode(s)) == ValidateCode(s)
  {
    ValidateCodeFixedPoints(ValidateCode(s));
  }

  /** Once two code characters are in, further typing changes nothing. */
  lemma ValidateCodeFull(s: string, t: string)
    requires |ValidateCode(s)| == 2
    ensures ValidateCode(s + t) == ValidateCode(s)
  {
    KeepCodeCharsAppend(s, t);
    var k := KeepCodeChars(s);
    assert (k + KeepCodeChars(t))[..2] == k[..2];
  }

  /** Upper-case input is accepted as its lower-case form. */
  lemma ValidateCodeExamples()
    ensures ValidateCode("1A") == "1a"
    ensures ValidateCode("7x3B9") == "3b"
    ensures ValidateCode("") == ""
  {
    assert KeepCodeChars("A") == "a";
    assert KeepCodeChars("1A") == "1a";
    assert KeepCodeChars("9") == "";
    assert KeepCodeChars("B9") == "b";
    assert KeepCodeChars("3B9") == "3b";
    assert KeepCodeChars("x3B9") == "3b";
    assert KeepCodeChars("7x3B9") == "3b";
  }

  // ----- positions -----

  /** The athletics position input: upper-cased, cut to two characters. */
  function NormalizePosition(text: string): (r: string)
    ensures |r| <= 2
    ensures |r| <= |text|
    ensures |r| == 2 || |r| == |text|
    ensures forall i :: 0 <= i < |r| ==> r[i] == UpperChar(text[i])
  {
    var u := Upper(text);
    if |u| <= 2 then u else u[..2]
  }

  /** Normalising a normalised position changes nothing, and neither does
      the second upper-casing the payload applies. */
  lemma NormalizePositionIdempotent(text: string)
    ensures NormalizePosition(NormalizePosition(text)) == NormalizePosition(text)
    ensures Upper(NormalizePosition(text)) == NormalizePosition(text)
  {
  }

  // ----- the creation form -----

  datatype Form = Form(codeA: string, codeB: string, positions: seq<string>, gender: string)

  /** The form as the screen opens it and resets it after a create: empty
      codes, one empty position per event slot, "femenino". */
  function InitialForm(key: string): (f: Form)
    ensures f.codeA == "" && f.codeB == "" && f.gender == "femenino"
    ensures |f.positions| == PositionsCount(key)
    ensures forall i :: 0 <= i < |f.positions| ==> f.positions[i] == ""
  {
    Form("", "", seq(PositionsCount(key), i => ""), "femenino")
  }

  datatype Side = A | B

  /** Typing into one of the two code fields. */
  function EditCode(f: Form, side: Side, text: string): (r: Form)
    ensures IsCode(if side == A then r.codeA else r.codeB)
    ensures (if side == A then r.codeA else r.codeB) == ValidateCode(text)
    ensures side == A ==> r.codeB == f.codeB
    ensures side == B ==> r.codeA == f.codeA
    ensures r.positions == f.positions && r.gender == f.gender
  {
    if side == A then f.(codeA := ValidateCode(text)) else f.(codeB := ValidateCode(text))
  }

  /** Typing into position `idx`: that slot is normalised, the others are kept. */
  function EditPosition(f: Form, idx: nat, text: string): (r: Form)
    requires idx < |f.positions|
    ensures |r.positions| == |f.positions|
    ensures r.positions[idx] == NormalizePosition(text)
    ensures forall i :: 0 <= i < |f.positions| && i != idx ==> r.positions[i] == f.positions[i]
    ensures r.codeA == f.codeA && r.codeB == f.codeB && r.gender == f.gender
  {
    f.(positions := f.positions[idx := NormalizePosition(text)])
  }

  /** Whether some position is still the empty string, which is what keeps
      the save button of an athletics form disabled. */
  function AnyEmpty(ps: seq<string>): (b: bool)
    ensures b <==> exists i :: 0 <= i < |ps| && ps[i] == ""
  {
    if |ps| == 0 then false
    else if ps[0] == "" then true
    else
      assert forall i :: 1 <= i < |ps| ==> ps[i] == ps[1..][i - 1];
      AnyEmpty(ps[1..])
  }

  /** Whether "Guardar" is enabled: athletics needs every position filled,
      other categories need two-character codes on both sides (which may be equal). */
  predicate SaveEnabled(key: string, f: Form) {
    if IsAthletics(key) then !AnyEmpty(f.positions)
    else |f.codeA| == 2 && |f.codeB| == 2
  }

  lemma SaveEnabledIff(key: string, f: Form)
    ensures IsAthletics(key) ==>
      (SaveEnabled(key, f) <==> forall i :: 0 <= i < |f.positions| ==> f.positions[i] != "")
    ensures !IsAthletics(key) ==>
      (SaveEnabled(key, f) <==> |f.codeA| == 2 && |f.codeB| == 2)
  {
  }

  /** A relay with an empty second place cannot be saved. */
  lemma MissingPositionDisablesSave()
    ensures !SaveEnabled("atletismo_relevo", Form("", "", ["1A", "", "3C"], "femenino"))
  {
    assert AthleticsPrefix <= "atletismo_relevo";
    assert ["1A", "", "3C"][1] == "";
  }

  /** Two equal team codes are accepted: nothing compares them. */
  lemma EqualCodesEnableSave()
    ensures SaveEnabled("futbol", Form("1a", "1a", [], "femenino"))
  {
    assert !(AthleticsPrefix <= "futbol") by { assert "futbol"[0] != AthleticsPrefix[1]; }
  }

  /** A freshly opened form cannot be saved, except for an athletics key
      outside the three known events, whose form has no position to fill. */
  lemma InitialFormSave(key: string)
    ensures SaveEnabled(key, InitialForm(key)) <==> IsAthletics(key) && PositionsCount(key) == 0
  {
    var f := InitialForm(key);
    if IsAthletics(key) && PositionsCount(key) > 0 {
      assert f.positions[0] == "";
    }
  }

  /** An enabled team form carries two codes the filter produced. */
  lemma EnabledTeamFormHoldsCodes(key: string, f: Form, textA: string, textB: string)
    requires !IsAthletics(key)
    requires f.codeA == ValidateCode(textA) && f.codeB == ValidateCode(textB)
    requires SaveEnabled(key, f)
    ensures IsCode(f.codeA) && |f.codeA| == 2
    ensures IsCode(f.codeB) && |f.codeB| == 2
  {
  }

  // ----- the create payload -----

  function UpperAll(ps: seq<string>): (r: seq<string>)
    ensures |r| == |ps|
    ensures forall i :: 0 <= i < |ps| ==> r[i] == Upper(ps[i])
  {
    seq(|ps|, i requires 0 <= i < |ps| => Upper(ps[i]))
  }

  /** The body `saveSection` posts: gender and upper-cased positions for
      athletics; both codes and two zero scores otherwise. It never carries
      `category`, which comes from the URL. */
  function Payload(key: string, f: Form): (b: Body)
    ensures CreatableBody(b)
    ensures b.finished.None? && b.date.None?
    ensures IsAthletics(key) ==>
      && b.gender == Some(f.gender)
      && b.positions.Some? && |b.positions.value| == |f.positions|
      && (forall i :: 0 <= i < |f.positions| ==> b.positions.value[i] == Upper(f.positions[i]))
      && b.codeA.None? && b.codeB.None? && b.scoreA.None? && b.scoreB.None?
    ensures !IsAthletics(key) ==>
      && b.codeA == Some(f.codeA) && b.codeB == Some(f.codeB)
      && b.scoreA == Some(0) && b.scoreB == Some(0)
      && b.gender.None? && b.positions.None?
  {
    if IsAthletics(key) then EmptyBody.(gender := Some(f.gender), positions := Some(UpperAll(f.positions)))
    else EmptyBody.(codeA := Some(f.codeA), codeB := Some(f.codeB), scoreA := Some(0), scoreB := Some(0))
  }

  /** What the server stores for a form: an open section of the screen's
      category at 0 - 0 with the form's codes, or with its positions. */
  lemma PayloadCreatesOpenSection(key: string, f: Form, id: int, now: Date)
    ensures var s := NewSection(id, key, Payload(key, f), now);
      && s.category == key && !s.finished && s.scoreA == 0 && s.scoreB == 0 && s.date == now
      && (!IsAthletics(key) ==> s.codeA == Some(f.codeA) && s.codeB == Some(f.codeB))
      && (IsAthletics(key) ==> s.positions == Some(UpperAll(f.positions)) && s.gender == Some(f.gender))
  {
  }

  /** Positions typed through the input arrive at the server as typed. */
  lemma NormalizedPositionsSentAsIs(ps: seq<string>, typed: seq<string>)
    requires |ps| == |typed|
    requires forall i :: 0 <= i < |ps| ==> ps[i] == NormalizePosition(typed[i])
    ensures UpperAll(ps) == ps
  {
    forall i | 0 <= i < |ps| ensures UpperAll(ps)[i] == ps[i] {
      NormalizePositionIdempotent(typed[i]);
    }
  }

  // ----- score and finished requests -----

  function ScoreOf(sec: Section, side: Side): int {
    if side == A then sec.scoreA else sec.scoreB
  }

  /** A body that sets one side's score. */
  function ScoreBody(side: Side, v: int): (b: Body)
    ensures side == A ==> b == EmptyBody.(scoreA := Some(v))
    ensures side == B ==> b == EmptyBody.(scoreB := Some(v))
  {
    if side == A then EmptyBody.(scoreA := Some(v)) else EmptyBody.(scoreB := Some(v))
  }

  /** The score a step sends: the current score plus the delta, raised to
      zero when it would go below; there is no upper cap. */
  function Stepped(current: int, delta: int): (v: int)
    ensures v >= 0
    ensures v >= current + delta
    ensures v == current + delta || v == 0
  {
    if current + delta < 0 then 0 else current + delta
  }

  /** The "+" / "-" buttons: a body with the stepped score of the pressed
      side as its only key. */
  function StepBody(sec: Section, side: Side, delta: int): (b: Body)
    ensures side == A ==> b == EmptyBody.(scoreA := Some(Stepped(sec.scoreA, delta)))
    ensures side == B ==> b == EmptyBody.(scoreB := Some(Stepped(sec.scoreB, delta)))
  {
    ScoreBody(side, Stepped(ScoreOf(sec, side), delta))
  }

  /** Typing into a score field: the text read as a base-10 integer, with
      unreadable text read as 0, sent unclamped as the only key. */
  function DirectBody(side: Side, text: string): (b: Body)
    ensures side == A ==> b == EmptyBody.(scoreA := Some(IntOrZero(text)))
    ensures side == B ==> b == EmptyBody.(scoreB := Some(IntOrZero(text)))
  {
    ScoreBody(side, IntOrZero(text))
  }

  /** A score typed as a plain decimal number reaches the server as that
      number, on that side only. */
  lemma TypedScoreIsStored(sec: Section, side: Side, n: nat)
    ensures var r := Apply(sec, DirectBody(side, Digits.Show(n)));
      && ScoreOf(r, side) == n
      && ScoreOf(r, if side == A then B else A) == ScoreOf(sec, if side == A then B else A)
      && r.finished == sec.finished
  {
    ParseShow(n, []);
    assert Digits.Show(n) + [] == Digits.Show(n);
  }

  /** The flag button: the negated flag and the current time. */
  function ToggleBody(sec: Section, now: Date): (b: Body)
    ensures b.finished == Some(!sec.finished) && b.date == Some(now)
    ensures b.scoreA.None? && b.scoreB.None? && b.positions.None? && b.category.None?
    ensures b == EmptyBody.(finished := Some(!sec.finished), date := Some(now))
  {
    EmptyBody.(finished := Some(!sec.finished), date := Some(now))
  }

  /** Once the server applies a step, the side holds `max(0, old + delta)`
      and nothing else moves. */
  lemma StepOnServer(sec: Section, side: Side, delta: int)
    ensures var r := Apply(sec, StepBody(sec, side, delta));
      && ScoreOf(r, side) == (if ScoreOf(sec, side) + delta < 0 then 0 else ScoreOf(sec, side) + delta)
      && ScoreOf(r, if side == A then B else A) == ScoreOf(sec, if side == A then B else A)
      && r.finished == sec.finished && r.category == sec.category && r.id == sec.id
  {
  }

  /** Scores grow without bound and stop at zero going down. */
  lemma StepBounds(n: nat)
    ensures Stepped(n, 1) == n + 1
    ensures Stepped(0, -1) == 0
  {
  }

  /** A typed minus and a non-zero digit reach the server as a negative score. */
  lemma DirectEditCanBeNegative(sec: Section, c: char)
    requires Digits.IsDigit(c) && c != '0'
    ensures ScoreOf(Apply(sec, DirectBody(A, ['-', c])), A) == -(Digits.DigitValue(c) as int) < 0
  {
    MinusIsKept(c);
  }

  /** Toggling twice restores the flag; only the date moved. */
  lemma ToggleTwice(sec: Section, t1: Date, t2: Date)
    ensures var once := Apply(sec, ToggleBody(sec, t1));
      var twice := Apply(once, ToggleBody(once, t2));
      once.finished == !sec.finished && twice == sec.(date := t2)
  {
  }

  // ----- controls -----

  /** Which controls of a section card are shown and enabled. */
  datatype Controls = Controls(toggle: bool, delete: bool, scoreButtons: bool, scoreInputs: bool, positionInputs: bool)

  /** Team cards show the flag and trash buttons (the flag is never disabled)
      and score controls disabled by `finished`; athletics cards show only
      position inputs, read-only once finished. */
  function ControlsFor(key: string, sec: Section): (c: Controls)
    ensures c.toggle <==> !IsAthletics(key)
    ensures c.delete <==> !IsAthletics(key)
    ensures c.scoreButtons <==> !IsAthletics(key) && !sec.finished
    ensures c.scoreInputs <==> !IsAthletics(key) && !sec.finished
    ensures c.positionInputs <==> IsAthletics(key) && !sec.finished
  {
    var team := !IsAthletics(key);
    Controls(team, team, team && !sec.finished, team && !sec.finished, !team && !sec.finished)
  }

  /** A user action on a card. */
  datatype Action = Toggle | Remove | Step(side: Side, delta: int) | Type(side: Side, text: string)

  predicate Available(key: string, sec: Section, a: Action) {
    var c := ControlsFor(key, sec);
    match a
    case Toggle => c.toggle
    case Remove => c.delete
    case Step(_, _) => c.scoreButtons
    case Type(_, _) => c.scoreInputs
  }

  /** The update body an action sends; `None` for the delete, which sends none. */
  function RequestBody(sec: Section, a: Action, now: Date): (b: Option<Body>)
    ensures b.None? <==> a.Remove?
    ensures a.Toggle? ==> b == Some(ToggleBody(sec, now))
    ensures a.Step? ==> b == Some(StepBody(sec, a.side, a.delta))
    ensures a.Type? ==> b == Some(DirectBody(a.side, a.text))
  {
    match a
    case Toggle => Some(ToggleBody(sec, now))
    case Remove => None
    case Step(side, delta) => Some(StepBody(sec, side, delta))
    case Type(side, text) => Some(DirectBody(side, text))
  }

  /** The finished-lock as the client enforces it: on a finished section no
      available action sends a score, and the flag can always be cleared. */
  lemma FinishedLock(key: string, sec: Section, a: Action, now: Date)
    requires sec.finished
    requires Available(key, sec, a)
    ensures a.Toggle? || a.Remove?
    ensures var b := RequestBody(sec, a, now);
      b.Some? ==> b.value.scoreA.None? && b.value.scoreB.None? && b.value.finished == Some(false)
  {
  }

  /** On a team card the flag and trash buttons are there whatever the flag
      says, while every score control, on either side, exists only before
      the section is finished. */
  lemma ToggleAlwaysAvailable(key: string, sec: Section, side: Side, delta: int, text: string)
    requires !IsAthletics(key)
    ensures Available(key, sec, Toggle) && Available(key, sec, Remove)
    ensures Available(key, sec, Step(side, delta)) <==> !sec.finished
    ensures Available(key, sec, Type(side, text)) <==> !sec.finished
  {
  }

  // ----- the list on screen -----

  /** What `fetch` produced: it threw (network error), or a response with its
      status and the section record its body holds, `None` when the body is
      not JSON at all (an error page, an empty body). A JSON body is taken to
      be a section record. */
  datatype Response = Threw | Response(status: int, record: Option<Section>)

  /** `res.ok`: a status in 200..299. */
  predicate Ok(resp: Response) {
    resp.Response? && 200 <= resp.status <= 299
  }

  /** A success whose body parses as JSON; parsing a body that is not JSON
      after an ok status throws, which the handlers treat as a failure. */
  predicate Delivered(resp: Response) {
    Ok(resp) && resp.record.Some?
  }

  /** The initial load: the fetched list, or the previous one after a failure. */
  function AfterLoad(list: seq<Section>, fetched: Option<seq<Section>>): (r: seq<Section>)
    ensures fetched.Some? ==> r == fetched.value
    ensures fetched.None? ==> r == list
  {
    fetched.GetOr(list)
  }

  /** A successful create appends the returned record; a failure leaves the list. */
  function AfterCreate(list: seq<Section>, resp: Response): (r: seq<Section>)
    ensures Delivered(resp) ==> |r| == |list| + 1 && r[..|list|] == list && r[|list|] == resp.record.value
    ensures !Delivered(resp) ==> r == list
  {
    if Delivered(resp) then list + [resp.record.value] else list
  }

  /** Every record carrying `id` is replaced by `updated`; the others stay
      where they are. */
  function ReplaceId(list: seq<Section>, id: int, updated: Section): (r: seq<Section>)
    ensures |r| == |list|
    ensures forall i :: 0 <= i < |list| && list[i].id != id ==> r[i] == list[i]
    ensures forall i :: 0 <= i < |list| && list[i].id == id ==> r[i] == updated
  {
    seq(|list|, i requires 0 <= i < |list| => if list[i].id == id then updated else list[i])
  }

  /** After an update or toggle: replaced in place on success, untouched on failure. */
  function AfterUpdate(list: seq<Section>, id: int, resp: Response): (r: seq<Section>)
    ensures |r| == |list|
    ensures !Delivered(resp) ==> r == list
    ensures Delivered(resp) ==> r == ReplaceId(list, id, resp.record.value)
  {
    if Delivered(resp) then ReplaceId(list, id, resp.record.value) else list
  }

  /** With unique ids, replacing is a point update at the one matching index,
      which keeps the ids unique when the record keeps its id. */
  lemma ReplaceUnique(list: seq<Section>, k: nat, updated: Section)
    requires UniqueIds(list)
    requires k < |list|
    ensures ReplaceId(list, list[k].id, updated) == list[k := updated]
    ensures updated.id == list[k].id ==> UniqueIds(list[k := updated]) && Ids(list[k := updated]) == Ids(list)
  {
    var r := list[k := updated];
    if updated.id == list[k].id {
      assert forall i :: 0 <= i < |r| ==> r[i].id == list[i].id;
      assert Ids(r) == Ids(list) by {
        forall y | y in Ids(list) ensures y in Ids(r) {
          var i :| 0 <= i < |list| && list[i].id == y;
          assert r[i].id == y;
        }
      }
    }
  }

  /** An id the list does not hold replaces nothing. */
  lemma ReplaceAbsent(list: seq<Section>, id: int, updated: Section)
    requires id !in Ids(list)
    ensures ReplaceId(list, id, updated) == list
  {
    forall i | 0 <= i < |list| ensures list[i].id != id {
      assert list[i].id in Ids(list);
    }
  }

  /** The ids of a list in its order, repeats included. */
  function IdSeq(list: seq<Section>): seq<int> {
    seq(|list|, i requires 0 <= i < |list| => list[i].id)
  }

  /** How many records carry `id`: the multiplicity of `id` among the list's
      ids, which is zero exactly when the id is absent. */
  function CountId(list: seq<Section>, id: int): (n: nat)
    ensures n <= |list|
    ensures n == multiset(IdSeq(list))[id]
    ensures n == 0 <==> id !in Ids(list)
  {
    if |list| == 0 then 0
    else
      assert IdSeq(list) == [list[0].id] + IdSeq(list[1..]);
      (if list[0].id == id then 1 else 0) + CountId(list[1..], id)
  }

  /** The records whose id differs from `id`, in their order. */
  function RemoveId(list: seq<Section>, id: int): (r: seq<Section>)
    ensures |r| == |list| - CountId(list, id)
    ensures forall i :: 0 <= i < |r| ==> r[i].id != id && r[i] in list
    ensures forall s :: s in list && s.id != id ==> s in r
  {
    if |list| == 0 then []
    else
      var rest := RemoveId(list[1..], id);
      assert forall s :: s in list ==> s == list[0] || s in list[1..];
      if list[0].id == id then rest else [list[0]] + rest
  }

  /** After a delete: only a 204 removes, any other status or a thrown
      request leaves the list; the body is never read. */
  function AfterDelete(list: seq<Section>, id: int, resp: Response): (r: seq<Section>)
    ensures !(resp.Response? && resp.status == 204) ==> r == list
    ensures resp.Response? && resp.status == 204 ==> r == RemoveId(list, id)
  {
    if resp.Response? && resp.status == 204 then RemoveId(list, id) else list
  }

  lemma {:induction false} RemoveAbsent(list: seq<Section>, id: int)
    requires forall i :: 0 <= i < |list| ==> list[i].id != id
    ensures RemoveId(list, id) == list
  {
    if |list| > 0 {
      RemoveAbsent(list[1..], id);
      assert list == [list[0]] + list[1..];
    }
  }

  lemma UniqueTail(list: seq<Section>)
    requires UniqueIds(list) && |list| > 0
    ensures UniqueIds(list[1..])
  {
  }

  lemma RemoveKeepsHead(list: seq<Section>, id: int)
    requires |list| > 0 && list[0].id != id
    ensures RemoveId(list, id) == [list[0]] + RemoveId(list[1..], id)
  {
  }

  /** With unique ids, deleting the head's id leaves exactly the tail. */
  lemma RemoveHead(list: seq<Section>)
    requires UniqueIds(list) && |list| > 0
    ensures RemoveId(list, list[0].id) == list[1..]
  {
    var tail := list[1..];
    forall i | 0 <= i < |tail| ensures tail[i].id != list[0].id {
      assert tail[i] == list[i + 1];
    }
    RemoveAbsent(tail, list[0].id);
  }

  lemma Splice<T>(list: seq<T>, k: nat)
    requires 0 < k < |list|
    ensures [list[0]] + (list[1..][..k - 1] + list[1..][k..]) == list[..k] + list[k + 1..]
  {
    assert list[1..][..k - 1] == list[1..k];
    assert list[1..][k..] == list[k + 1..];
    assert list[..k] == [list[0]] + list[1..k];
  }

  /** With unique ids, a delete cuts out exactly the one matching record and
      keeps the others in their order. */
  lemma {:induction false} RemoveUnique(list: seq<Section>, k: nat)
    requires UniqueIds(list)
    requires k < |list|
    ensures RemoveId(list, list[k].id) == list[..k] + list[k + 1..]
  {
    if k == 0 {
      RemoveHead(list);
    } else {
      var id := list[k].id;
      var tail := list[1..];
      UniqueTail(list);
      assert tail[k - 1] == list[k];
      RemoveUnique(tail, k - 1);
      RemoveKeepsHead(list, id);
      Splice(list, k);
    }
  }

  /** Three sections, the middle one deleted: the outer two remain, in order. */
  lemma DeleteMiddle(a: Section, b: Section, c: Section)
    requires a.id != b.id && b.id != c.id && a.id != c.id
    ensures AfterDelete([a, b, c], b.id, Response(204, None)) == [a, c]
    ensures AfterDelete([a, b, c], b.id, Response(200, Some(b))) == [a, b, c]
  {
    RemoveUnique([a, b, c], 1);
    assert [a, b, c][..1] + [a, b, c][2..] == [a, c];
  }

  // ----- the whole screen around a create -----

  datatype Screen = Screen(sections: seq<Section>, form: Form, showForm: bool)

  /** After the create request answers: on success the record is appended,
      the modal closes and the form is reset; on failure nothing changes. */
  function AfterSave(key: string, screen: Screen, resp: Response): (r: Screen)
    ensures !Delivered(resp) ==> r == screen
    ensures Delivered(resp) ==>
      && r.sections == screen.sections + [resp.record.value]
      && !r.showForm
      && r.form == InitialForm(key)
  {
    if Delivered(resp) then Screen(AfterCreate(screen.sections, resp), InitialForm(key), false) else screen
  }
}

=== FILE: digits.dfy ===
/** Decimal digit strings: the shared ground of JavaScript's `parseInt`
    and Kotlin's `toIntOrNull`, and their inverse, the decimal rendering
    of a natural number. Only the ASCII digits '0'..'9' are digits here. */
module Digits {

  predicate IsDigit(c: char) {
    '0' <= c <= '9'
  }

  predicate AllDigits(s: string) {
    forall i :: 0 <= i < |s| ==> IsDigit(s[i])
  }

  function DigitValue(c: char): (d: nat)
    requires IsDigit(c)
    ensures d < 10
  {
    (c as int) - ('0' as int)
  }

  function DigitChar(d: nat): (c: char)
    requires d < 10
    ensures IsDigit(c)
    ensures DigitValue(c) == d
  {
    (('0' as int) + d) as char
  }

  /** Value of a digit string read most significant digit first. */
  function Value(s: string): nat
    requires AllDigits(s)
  {
    if |s| == 0 then 0 else Value(s[..|s| - 1]) * 10 + DigitValue(s[|s| - 1])
  }

  /** The decimal rendering of `n`, without sign or leading zeros. */
  function Show(n: nat): (s: string)
    ensures AllDigits(s)
    ensures 1 <= |s|
    ensures |s| == 1 || s[0] != '0'
  {
    if n < 10 then [DigitChar(n)] else Show(n / 10) + [DigitChar(n % 10)]
  }

  /** A leading zero does not change the value of a digit string. */
  lemma {:induction false} LeadingZero(t: string)
    requires AllDigits(t)
    ensures AllDigits("0" + t)
    ensures Value("0" + t) == Value(t)
  {
    var z := "0" + t;
    if |t| > 0 {
      assert z[..|z| - 1] == "0" + t[..|t| - 1];
      assert z[|z| - 1] == t[|t| - 1];
      LeadingZero(t[..|t| - 1]);
    } else {
      assert z[..|z| - 1] == [];
    }
  }

  /** The longest prefix of `s` made of digits. */
  function LeadingDigits(s: string): (r: string)
    ensures AllDigits(r)
    ensures r <= s
    ensures |r| == |s| || !IsDigit(s[|r|])
  {
    if |s| == 0 || !IsDigit(s[0]) then [] else [s[0]] + LeadingDigits(s[1..])
  }

  /** Reading back a rendered number gives the number. */
  lemma {:induction false} ValueOfShow(n: nat)
    ensures Value(Show(n)) == n
  {
    if n >= 10 {
      var s := Show(n);
      assert s[..|s| - 1] == Show(n / 10);
      ValueOfShow(n / 10);
    }
  }

  /** The digit prefix of a rendered number followed by a non-digit is the rendering itself. */
  lemma {:induction false} LeadingDigitsOfShow(s: string, t: string)
    requires AllDigits(s)
    requires |t| == 0 || !IsDigit(t[0])
    ensures LeadingDigits(s + t) == s
  {
    if |s| > 0 {
      assert (s + t)[1..] == s[1..] + t;
      LeadingDigitsOfShow(s[1..], t);
    } else {
      assert s + t == t;
    }
  }
}

=== FILE: js_parse.dfy ===
/** JavaScript's `parseInt(text, 10)` on the integers it can represent
    exactly, and the `|| 0` the score editor puts after it. */
module JsParseInt {
  import opened Wrappers
  import opened Digits

  /** The characters ECMAScript strips before a number: white space (tab,
      vertical tab, form feed, the byte-order mark and every space separator)
      and the line terminators. */
  predicate IsJsSpace(c: char) {
    || c == '\t' || c == '\n' || c == '\U{B}' || c == '\U{C}' || c == '\r'
    || c == ' ' || c == '\U{A0}' || c == '\U{1680}'
    || ('\U{2000}' <= c <= '\U{200A}')
    || c == '\U{2028}' || c == '\U{2029}' || c == '\U{202F}' || c == '\U{205F}'
    || c == '\U{3000}' || c == '\U{FEFF}'
  }

  /** `text` without its leading white space. */
  function TrimStart(text: string): (r: string)
    ensures |r| <= |text| && r == text[|text| - |r|..]
    ensures |r| == 0 || !IsJsSpace(r[0])
    ensures forall i :: 0 <= i < |text| - |r| ==> IsJsSpace(text[i])
  {
    if |text| > 0 && IsJsSpace(text[0]) then TrimStart(text[1..]) else text
  }

  /** The text after an optional leading sign. */
  function Unsigned(t: string): (u: string)
    ensures |t| > 0 && (t[0] == '-' || t[0] == '+') ==> u == t[1..]
    ensures !(|t| > 0 && (t[0] == '-' || t[0] == '+')) ==> u == t
  {
    if |t| > 0 && (t[0] == '-' || t[0] == '+') then t[1..] else t
  }

  /** The number at the start of `t`, which has no leading white space. */
  function ParseSigned(t: string): (r: Option<int>)
    ensures r.None? <==> LeadingDigits(Unsigned(t)) == []
    ensures r.Some? && r.value < 0 ==> t[0] == '-'
  {
    var ds := LeadingDigits(Unsigned(t));
    var v: int := if ds == [] then 0 else Value(ds);
    if ds == [] then None
    else if |t| > 0 && t[0] == '-' then Some(-v)
    else Some(v)
  }

  /** `parseInt(text, 10)`: leading white space, then an optional sign, then
      the longest run of decimal digits; `None` (NaN) when that run is empty. */
  function ParseInt(text: string): (r: Option<int>)
    ensures r.None? <==> LeadingDigits(Unsigned(TrimStart(text))) == []
    ensures r.Some? && r.value < 0 ==> TrimStart(text)[0] == '-'
  {
    ParseSigned(TrimStart(text))
  }

  /** `parseInt(text, 10) || 0`: NaN (and both zeros) read as 0. The sign is
      kept, so the result may be negative. */
  function IntOrZero(text: string): (v: int)
    ensures ParseInt(text).None? ==> v == 0
    ensures ParseInt(text).Some? ==> v == ParseInt(text).value
  {
    ParseInt(text).GetOr(0)
  }

  lemma TrimNoSpace(t: string)
    requires |t| > 0 && !IsJsSpace(t[0])
    ensures TrimStart(t) == t
  {
  }

  /** What `ParseSigned` returns once the digit run after the sign is known. */
  lemma SignedRun(t: string, ds: string)
    requires |ds| > 0 && LeadingDigits(Unsigned(t)) == ds
    ensures |t| > 0
    ensures ParseSigned(t) == Some(if t[0] == '-' then -(Value(ds) as int) else Value(ds))
  {
  }

  /** An unsigned digit run is read up to the first non-digit. */
  lemma UnsignedRun(ds: string, rest: string)
    requires |ds| > 0 && AllDigits(ds)
    requires |rest| == 0 || !IsDigit(rest[0])
    ensures TrimStart(ds + rest) == ds + rest
    ensures LeadingDigits(Unsigned(ds + rest)) == ds
  {
    var u := ds + rest;
    assert u[0] == ds[0] && IsDigit(u[0]);
    assert Unsigned(u) == u;
    LeadingDigitsOfShow(ds, rest);
    TrimNoSpace(u);
  }

  /** A run of digits, then text that does not start with a digit, reads as
      the run's value. */
  lemma ParseDigits(ds: string, rest: string)
    requires |ds| > 0 && AllDigits(ds)
    requires |rest| == 0 || !IsDigit(rest[0])
    ensures ParseInt(ds + rest) == Some(Value(ds))
  {
    UnsignedRun(ds, rest);
    SignedRun(ds + rest, ds);
  }

  /** The same run behind a minus sign reads as its negation. */
  lemma ParseNegativeDigits(ds: string, rest: string)
    requires |ds| > 0 && AllDigits(ds)
    requires |rest| == 0 || !IsDigit(rest[0])
    ensures ParseInt("-" + ds + rest) == Some(-(Value(ds) as int))
  {
    var u := ds + rest;
    var t := "-" + ds + rest;
    assert t == "-" + u;
    assert t[0] == '-' && t[1..] == u;
    LeadingDigitsOfShow(ds, rest);
    TrimNoSpace(t);
    assert Unsigned(t) == u;
    SignedRun(t, ds);
  }

  /** A rendered number reads back as itself, whatever non-digit text follows. */
  lemma ParseShow(n: nat, rest: string)
    requires |rest| == 0 || !IsDigit(rest[0])
    ensures ParseInt(Show(n) + rest) == Some(n)
  {
    ParseDigits(Show(n), rest);
    ValueOfShow(n);
  }

  /** Leading white space is skipped. */
  lemma {:induction false} TrimSkipsSpace(space: string, text: string)
    requires forall i :: 0 <= i < |space| ==> IsJsSpace(space[i])
    ensures TrimStart(space + text) == TrimStart(text)
  {
    if |space| > 0 {
      assert (space + text)[0] == space[0];
      assert (space + text)[1..] == space[1..] + text;
      TrimSkipsSpace(space[1..], text);
    } else {
      assert space + text == text;
    }
  }

  /** Leading white space does not change what is read. */
  lemma ParseSkipsSpace(space: string, text: string)
    requires forall i :: 0 <= i < |space| ==> IsJsSpace(space[i])
    ensures ParseInt(space + text) == ParseInt(text)
  {
    TrimSkipsSpace(space, text);
  }

  /** Text that does not start with a number reads as 0. */
  lemma NonNumericReadsZero(text: string)
    requires |text| > 0 && !IsDigit(text[0]) && !IsJsSpace(text[0])
    requires text[0] != '-' && text[0] != '+'
    ensures IntOrZero(text) == 0
  {
  }

  /** A minus sign is honoured: a minus and a non-zero digit read as a
      negative number, not as 0 and not as the digit. */
  lemma MinusIsKept(c: char)
    requires IsDigit(c) && c != '0'
    ensures IntOrZero(['-', c]) == -(DigitValue(c) as int) < 0
  {
    assert ['-', c] == "-" + [c] + [];
    assert Value([c]) == DigitValue(c) by { assert [c][..0] == []; }
    ParseNegativeDigits([c], []);
  }
}

=== FILE: pruebas.dfy ===
/** The Kotlin practice file: a subtraction on 32-bit `Int`, a month-to-
    semester `when`, an age check, and the `readLine()?.toIntOrNull() ?: 0`
    that feeds the last two. Printing becomes the returned classification. */
module Pruebas {
  import opened Wrappers
  import opened Digits

  const IntMin: int := -0x8000_0000
  const IntMax: int := 0x7FFF_FFFF

  /** Kotlin's `Int`. */
  newtype Int32 = x: int | -0x8000_0000 <= x < 0x8000_0000

  /** Two's-complement wrap-around of an exact result into `Int`. */
  function Wrap(x: int): (r: Int32)
    ensures (r as int - x) % 0x1_0000_0000 == 0
    ensures IntMin <= x <= IntMax ==> r as int == x
  {
    ((x + 0x8000_0000) % 0x1_0000_0000 - 0x8000_0000) as Int32
  }

  /** `resta(numberOne, numberTwo)`: the difference, wrapping on overflow. */
  function Resta(a: Int32, b: Int32): (r: Int32)
    ensures IntMin <= a as int - b as int <= IntMax ==> r as int == a as int - b as int
    ensures (r as int - (a as int - b as int)) % 0x1_0000_0000 == 0
  {
    Wrap(a as int - b as int)
  }

  /** `main` prints `resta(8, 9)`, which is -1; the extreme case wraps. */
  lemma RestaExamples()
    ensures Resta(8, 9) == -1
    ensures Resta(-0x8000_0000, 1) == 0x7FFF_FFFF
  {
  }

  // ----- semesters -----

  datatype Semester = FirstSemester | SecondSemester | NotASemester

  predicate InFirst(month: Int32) { 1 <= month <= 6 }
  predicate InSecond(month: Int32) { 7 <= month <= 12 }
  predicate OutsideYear(month: Int32) { !(1 <= month <= 12) }

  /** `probandoWhen(mes)`: the first `when` branch whose condition holds, or
      `None` if none did (nothing printed). */
  function ProbandoWhen(month: Int32): (r: Option<Semester>)
    ensures r.Some?
    ensures r == Some(FirstSemester) <==> 1 <= month <= 6
    ensures r == Some(SecondSemester) <==> 7 <= month <= 12
    ensures r == Some(NotASemester) <==> month < 1 || month > 12
  {
    if InFirst(month) then Some(FirstSemester)
    else if InSecond(month) then Some(SecondSemester)
    else if OutsideYear(month) then Some(NotASemester)
    else None
  }

  function Count(b: bool): nat { if b then 1 else 0 }

  /** The three conditions of the `when` split every `Int`: exactly one holds. */
  lemma ExactlyOneBranch(month: Int32)
    ensures Count(InFirst(month)) + Count(InSecond(month)) + Count(OutsideYear(month)) == 1
  {
  }

  // ----- ages -----

  datatype Age = Adult | Minor | InvalidAge

  /** The classification `verificadorEdad` prints for the number read. */
  function VerificadorEdad(number: Int32): (r: Age)
    ensures r == Adult <==> number >= 18
    ensures r == Minor <==> 1 <= number <= 17
    ensures r == InvalidAge <==> number <= 0
  {
    if number >= 18 then Adult
    else if number >= 1 && number < 18 then Minor
    else InvalidAge
  }

  // ----- reading a number -----

  /** `toIntOrNull()`: an optional sign then at least one decimal digit, and
      nothing else; `None` for anything else and for values outside `Int`. */
  function ToIntOrNull(s: string): (r: Option<Int32>)
    ensures |s| == 0 ==> r.None?
    ensures r.Some? ==> var u := if s[0] == '-' || s[0] == '+' then s[1..] else s;
      |u| > 0 && AllDigits(u)
  {
    if |s| == 0 then None
    else
      var negative := s[0] == '-';
      var u := if s[0] == '-' || s[0] == '+' then s[1..] else s;
      if |u| == 0 || !AllDigits(u) then None
      else
        var v: int := if negative then -(Value(u) as int) else Value(u);
        if IntMin <= v <= IntMax then Some(v as Int32) else None
  }

  /** `readLine()?.toIntOrNull() ?: 0`: end of input and unreadable text both give 0. */
  function ReadIntOrZero(line: Option<string>): (n: Int32)
    ensures line.None? ==> n == 0
    ensures line.Some? && ToIntOrNull(line.value).None? ==> n == 0
    ensures line.Some? && ToIntOrNull(line.value).Some? ==> n == ToIntOrNull(line.value).value
  {
    if line.None? then 0 else ToIntOrNull(line.value).GetOr(0)
  }

  /** Every `Int` written in decimal reads back as itself; a larger number reads as nothing. */
  lemma ToIntOrNullShow(n: nat)
    ensures n <= IntMax ==> ToIntOrNull(Show(n)) == Some(n as Int32)
    ensures n > IntMax ==> ToIntOrNull(Show(n)).None?
    ensures n <= IntMax + 1 ==> ToIntOrNull("-" + Show(n)) == Some(-(n as int) as Int32)
  {
    ValueOfShow(n);
    var s := Show(n);
    assert IsDigit(s[0]);
    assert ("-" + s)[0] == '-' && ("-" + s)[1..] == s;
  }

  /** Any sign followed by digits reads as the digits' decimal value, signed,
      when that fits in `Int`, and as nothing otherwise. */
  lemma ReadsDigitValue(t: string)
    requires |t| > 0 && AllDigits(t)
    ensures ToIntOrNull(t) == if Value(t) <= IntMax then Some(Value(t) as Int32) else None
    ensures ToIntOrNull("+" + t) == ToIntOrNull(t)
    ensures ToIntOrNull("-" + t) == if Value(t) <= IntMax + 1 then Some(-(Value(t) as int) as Int32) else None
  {
    assert IsDigit(t[0]);
    assert ("+" + t)[1..] == t;
    assert ("-" + t)[1..] == t;
  }

  /** A `+` sign and leading zeros do not change what is read: with
      `ToIntOrNullShow` this gives the value of every signed, zero-padded
      rendering of a number. */
  lemma SignAndLeadingZeros(t: string)
    requires |t| > 0 && AllDigits(t)
    ensures ToIntOrNull("+" + t) == ToIntOrNull(t)
    ensures ToIntOrNull("0" + t) == ToIntOrNull(t)
    ensures ToIntOrNull("-0" + t) == ToIntOrNull("-" + t)
  {
    LeadingZero(t);
    assert IsDigit(t[0]);
    assert ("+" + t)[1..] == t;
    assert ("-" + t)[1..] == t;
    assert ("-0" + t)[1..] == "0" + t;
  }

  /** Input that is not a number reads as 0, which is no semester and no valid age. */
  lemma UnreadableIsInvalid(line: Option<string>)
    requires line.None? || ToIntOrNull(line.value).None?
    ensures ProbandoWhen(ReadIntOrZero(line)) == Some(NotASemester)
    ensures VerificadorEdad(ReadIntOrZero(line)) == InvalidAge
  {
  }
}

=== FILE: scoreboard.dfy ===
/** The static scoreboard screen: one titled group per category of the home
    table, filled from a fixed table of finished matches keyed by category. */
module Scoreboard {
  import opened Categories

  datatype Match = Match(id: string, home: string, away: string, score: string)

  datatype Group = Group(title: string, data: seq<Match>)

  /** The finished matches the screen ships with, keyed by category. */
  const FinishedMatches: map<string, seq<Match>> := map[
    "futbol" := [Match("f1", "Equipo A", "Equipo B", "2 - 1"), Match("f2", "Equipo C", "Equipo D", "0 - 3")],
    "baloncesto" := [Match("b1", "Team X", "Team Y", "98 - 95")],
    "ajedrez" := [Match("c1", "Magnus Carlsen", "Hikaru Nakamura", "1 - 0")],
    "voleibol" := [Match("v1", "Volley A", "Volley B", "3 - 2")],
    "atletismo" := [Match("a1", "Usain Bolt", "Yohan Blake", "9.58 s")]
  ]

  /** The matches listed under `key`; a key with no entry has none. */
  function MatchesFor(finished: map<string, seq<Match>>, key: string): seq<Match> {
    if key in finished then finished[key] else []
  }

  /** One group per category, in catalogue order, titled with the category's
      label and holding the matches listed under its key. */
  function Groups(cats: seq<Category>, finished: map<string, seq<Match>>): (r: seq<Group>)
    ensures |r| == |cats|
    ensures forall i :: 0 <= i < |cats| ==> r[i].title == cats[i].name
    ensures forall i :: 0 <= i < |cats| ==> r[i].data == MatchesFor(finished, cats[i].key)
  {
    seq(|cats|, i requires 0 <= i < |cats| => Group(cats[i].name, MatchesFor(finished, cats[i].key)))
  }

  /** A match is on the board exactly when it is listed under the key of some
      category; matches under any other key never show. */
  lemma ShownIff(cats: seq<Category>, finished: map<string, seq<Match>>, m: Match)
    ensures (exists i :: 0 <= i < |cats| && m in Groups(cats, finished)[i].data)
        <==> (exists i :: 0 <= i < |cats| && cats[i].key in finished && m in finished[cats[i].key])
  {
    var g := Groups(cats, finished);
    if exists i :: 0 <= i < |cats| && m in g[i].data {
      var i :| 0 <= i < |cats| && m in g[i].data;
      assert cats[i].key in finished && m in finished[cats[i].key];
    }
    if exists i :: 0 <= i < |cats| && cats[i].key in finished && m in finished[cats[i].key] {
      var i :| 0 <= i < |cats| && cats[i].key in finished && m in finished[cats[i].key];
      assert m in g[i].data;
    }
  }

  /** With the shipped tables only football, volleyball and chess have
      matches; the basketball and athletics entries sit under keys the home
      table does not use. */
  lemma ShippedBoard()
    ensures var g := Groups(Catalogue, FinishedMatches);
      && |g| == 12
      && (forall i :: 0 <= i < 12 ==> (|g[i].data| > 0 <==> i in {0, 8, 11}))
      && g[0].data == FinishedMatches["futbol"]
      && g[8].data == FinishedMatches["voleibol"]
      && g[11].data == FinishedMatches["ajedrez"]
  {
    var keys := set i | 0 <= i < |Catalogue| :: Catalogue[i].key;
    assert "baloncesto" !in keys;
    assert "atletismo" !in keys;
  }
}

=== FILE: section_store.dfy ===
/** The backend's section routes as transitions of a store of sections
    keyed by id: a per-category listing, create, update and delete behind
    an admin check, and the global listing of finished sections. */
module SectionStore {
  import opened Wrappers
  import opened Sections
  import UserRegistry

  type Store = map<int, Section>

  /** Each section sits under its own id (the primary key). */
  predicate WellFormed(store: Store) {
    forall k :: k in store ==> store[k].id == k
  }

  /** The authenticated caller, or `None` when the login check refused the
      credentials (which answers 401 before the route body runs). */
  type Caller = Option<UserRegistry.User>

  predicate IsAdmin(caller: Caller) {
    caller.Some? && caller.value.isAdmin
  }

  /** A route's answer and the store it leaves behind. */
  datatype Reply = Reply(store: Store, status: int, section: Option<Section>)

  /** The status of a refused caller: 401 without credentials, 403 without
      the admin flag; `None` lets the route go on. */
  function Gate(caller: Caller): (r: Option<int>)
    ensures r.None? <==> IsAdmin(caller)
    ensures r == Some(401) <==> caller.None?
    ensures r.Some? ==> r.value in {401, 403}
  {
    if caller.None? then Some(401)
    else if !caller.value.isAdmin then Some(403)
    else None
  }

  /** `POST /sections/<category>` as intended: an admin adds exactly one
      section, under the id the database allocates, built from the URL
      category and the payload, and gets it back with a 201. The route as it
      stands answers differently; see `CreateAsWritten`. */
  function Create(store: Store, caller: Caller, category: string, body: Body, freshId: int, now: Date): (r: Reply)
    requires WellFormed(store)
    requires freshId !in store
    ensures WellFormed(r.store)
    ensures !IsAdmin(caller) ==> r.store == store && r.status in {401, 403}
    ensures caller.None? ==> r.status == 401
    ensures caller.Some? && !caller.value.isAdmin ==> r.status == 403
    ensures r.status == 201 <==> IsAdmin(caller) && CreatableBody(body)
    ensures r.status != 201 ==> r.store == store && r.section.None?
    ensures r.status == 201 ==>
      && r.section.Some?
      && r.store.Keys == store.Keys + {freshId}
      && (forall k :: k in store ==> r.store[k] == store[k])
      && r.store[freshId] == r.section.value
      && r.section.value.id == freshId
      && r.section.value.category == category
      && r.section.value == NewSection(freshId, category, body, now)
  {
    if Gate(caller).Some? then Reply(store, Gate(caller).value, None)
    else if !CreatableBody(body) then Reply(store, 500, None)
    else
      var s := NewSection(freshId, category, body, now);
      Reply(store[freshId := s], 201, Some(s))
  }

  /** `PUT /sections/<id>` as intended: the admin check comes before the
      lookup, so a non-admin gets 401 or 403 even for an unknown id; an
      unknown id is 404; otherwise every key of the body is written, finished
      or not, and the row comes back with a 200 (see `UpdateAsWritten` for
      the route as it stands). */
  function Update(store: Store, caller: Caller, id: int, body: Body): (r: Reply)
    requires WellFormed(store)
    ensures WellFormed(r.store)
    ensures r.store.Keys == store.Keys
    ensures !IsAdmin(caller) ==> r.store == store && r.status in {401, 403}
    ensures caller.None? ==> r.status == 401
    ensures caller.Some? && !caller.value.isAdmin ==> r.status == 403
    ensures IsAdmin(caller) && id !in store ==> r.store == store && r.status == 404
    ensures r.status == 200 <==> IsAdmin(caller) && id in store
    ensures r.status != 200 ==> r.store == store && r.section.None?
    ensures r.status == 200 ==>
      && (forall k :: k in store && k != id ==> r.store[k] == store[k])
      && r.section == Some(r.store[id])
      && r.store[id] == Apply(store[id], body)
  {
    if Gate(caller).Some? then Reply(store, Gate(caller).value, None)
    else if id !in store then Reply(store, 404, None)
    else
      var s := Apply(store[id], body);
      Reply(store[id := s], 200, Some(s))
  }

  // ----- create and update as they stand -----

  /** The create route as it stands: the row is committed first, and the reply
      is then built with a `jsonify` method that the section schema, a plain
      marshmallow schema, does not have. An admin's valid create therefore
      ends in a 500 with the new row already stored. */
  function CreateAsWritten(store: Store, caller: Caller, category: string, body: Body, freshId: int, now: Date): (r: Reply)
    requires WellFormed(store)
    requires freshId !in store
    ensures WellFormed(r.store)
    ensures r.section.None? && r.status != 201
    ensures !IsAdmin(caller) ==> r.store == store && r.status in {401, 403}
    ensures caller.None? ==> r.status == 401
    ensures caller.Some? && !caller.value.isAdmin ==> r.status == 403
    ensures IsAdmin(caller) ==> r.status == 500
    ensures !CreatableBody(body) ==> r.store == store
    ensures IsAdmin(caller) && CreatableBody(body) ==>
      r.store == store[freshId := NewSection(freshId, category, body, now)]
  {
    if Gate(caller).Some? then Reply(store, Gate(caller).value, None)
    else if !CreatableBody(body) then Reply(store, 500, None)
    else Reply(store[freshId := NewSection(freshId, category, body, now)], 500, None)
  }

  /** The update route as it stands: the same missing `jsonify` after the
      commit, so an admin's update of a stored id is written and then
      answered with a 500. */
  function UpdateAsWritten(store: Store, caller: Caller, id: int, body: Body): (r: Reply)
    requires WellFormed(store)
    ensures WellFormed(r.store)
    ensures r.store.Keys == store.Keys
    ensures r.section.None? && r.status != 200
    ensures !IsAdmin(caller) ==> r.store == store && r.status in {401, 403}
    ensures caller.None? ==> r.status == 401
    ensures caller.Some? && !caller.value.isAdmin ==> r.status == 403
    ensures IsAdmin(caller) && id !in store ==> r.store == store && r.status == 404
    ensures IsAdmin(caller) && id in store ==>
      r.status == 500 && r.store == store[id := Apply(store[id], body)]
  {
    if Gate(caller).Some? then Reply(store, Gate(caller).value, None)
    else if id !in store then Reply(store, 404, None)
    else Reply(store[id := Apply(store[id], body)], 500, None)
  }

  /** The create as it stands stores exactly the row the intended route
      stores, yet answers with a server error instead of 201 and the row. */
  lemma CreateCommitsThenFails(store: Store, caller: Caller, category: string, body: Body, freshId: int, now: Date)
    requires WellFormed(store) && freshId !in store
    requires IsAdmin(caller) && CreatableBody(body)
    ensures var w := CreateAsWritten(store, caller, category, body, freshId, now);
      var c := Create(store, caller, category, body, freshId, now);
      && w.store == c.store && freshId in w.store
      && w.status == 500 && w.section.None?
      && c.status == 201 && c.section == Some(w.store[freshId])
  {
  }

  /** The update as it stands writes exactly what the intended route writes,
      yet answers with a server error instead of 200 and the row. */
  lemma UpdateCommitsThenFails(store: Store, caller: Caller, id: int, body: Body)
    requires WellFormed(store) && IsAdmin(caller) && id in store
    ensures var w := UpdateAsWritten(store, caller, id, body);
      var u := Update(store, caller, id, body);
      && w.store == u.store
      && w.status == 500 && w.section.None?
      && u.status == 200 && u.section == Some(w.store[id])
  {
  }

  /** `DELETE /sections/<id>`: an admin removes exactly that id (204). */
  function Delete(store: Store, caller: Caller, id: int): (r: Reply)
    requires WellFormed(store)
    ensures WellFormed(r.store)
    ensures r.section.None?
    ensures !IsAdmin(caller) ==> r.store == store && r.status in {401, 403}
    ensures caller.None? ==> r.status == 401
    ensures caller.Some? && !caller.value.isAdmin ==> r.status == 403
    ensures IsAdmin(caller) && id !in store ==> r.store == store && r.status == 404
    ensures r.status == 204 <==> IsAdmin(caller) && id in store
    ensures r.status != 204 ==> r.store == store
    ensures r.status == 204 ==>
      && r.store.Keys == store.Keys - {id}
      && (forall k :: k in r.store ==> r.store[k] == store[k])
  {
    if Gate(caller).Some? then Reply(store, Gate(caller).value, None)
    else if id !in store then Reply(store, 404, None)
    else Reply(store - {id}, 204, None)
  }

  /** Editing the score of a finished section goes through: the server keeps
      no finished-lock. */
  lemma FinishedSectionsStayEditable(store: Store, caller: Caller, id: int, v: int)
    requires WellFormed(store) && IsAdmin(caller)
    requires id in store && store[id].finished
    ensures var r := Update(store, caller, id, EmptyBody.(scoreA := Some(v)));
      r.status == 200 && r.store[id].scoreA == v && r.store[id].finished
    ensures var w := UpdateAsWritten(store, caller, id, EmptyBody.(scoreA := Some(v)));
      w.store[id].scoreA == v && w.store[id].finished
  {
  }

  /** A created section can be deleted again, which gives back the old store. */
  lemma CreateThenDelete(store: Store, caller: Caller, category: string, body: Body, freshId: int, now: Date)
    requires WellFormed(store) && freshId !in store
    requires IsAdmin(caller) && CreatableBody(body)
    ensures var c := Create(store, caller, category, body, freshId, now);
      Delete(c.store, caller, freshId) == Reply(store, 204, None)
  {
    var c := Create(store, caller, category, body, freshId, now);
    assert c.store - {freshId} == store;
  }

  // ----- who reaches the routes -----

  /** The caller the section routes should see: the user whose credentials
      pass the registry's check, which is the password callback the login
      route's basic-auth object carries, or `None`. */
  function RouteCaller(reg: UserRegistry.Registry, email: string, password: string, h: UserRegistry.Hasher): (c: Caller)
    requires UserRegistry.WellFormed(reg)
    ensures c.Some? <==> email in reg && h.check(reg[email].password, password)
    ensures c.Some? ==> c.value == reg[email]
    ensures IsAdmin(c) <==> email in reg && reg[email].isAdmin && h.check(reg[email].password, password)
  {
    UserRegistry.Verify(reg, email, password, h)
  }

  /** The caller the section routes see as they stand: they guard with a
      basic-auth object of their own that has no password callback, so no
      credentials ever authenticate. */
  function RouteCallerAsWritten(reg: UserRegistry.Registry, email: string, password: string, h: UserRegistry.Hasher): (c: Caller)
    ensures !IsAdmin(c) && Gate(c) == Some(401)
  {
    None
  }

  /** As they stand, the section routes refuse a registered admin with the
      right password exactly as they refuse a stranger: every create, update
      and delete answers 401 and changes nothing. */
  lemma NoAdminReachesSectionRoutes(store: Store, reg: UserRegistry.Registry, email: string, password: string,
                                    h: UserRegistry.Hasher, category: string, body: Body, freshId: int, now: Date, id: int)
    requires WellFormed(store) && freshId !in store && UserRegistry.WellFormed(reg)
    requires email in reg && reg[email].isAdmin && h.check(reg[email].password, password)
    ensures var c := RouteCallerAsWritten(reg, email, password, h);
      && CreateAsWritten(store, c, category, body, freshId, now) == Reply(store, 401, None)
      && UpdateAsWritten(store, c, id, body) == Reply(store, 401, None)
      && Delete(store, c, id) == Reply(store, 401, None)
  {
  }

  /** With the registry's check in place, the same admin passes the gate:
      a valid create answers 201, and an update and a delete of a stored id
      answer 200 and 204. */
  lemma AdminReachesSectionRoutes(store: Store, reg: UserRegistry.Registry, email: string, password: string,
                                  h: UserRegistry.Hasher, category: string, body: Body, freshId: int, now: Date, id: int)
    requires WellFormed(store) && freshId !in store && UserRegistry.WellFormed(reg)
    requires email in reg && reg[email].isAdmin && h.check(reg[email].password, password)
    requires CreatableBody(body) && id in store
    ensures var c := RouteCaller(reg, email, password, h);
      && IsAdmin(c)
      && Create(store, c, category, body, freshId, now).status == 201
      && Update(store, c, id, body).status == 200
      && Delete(store, c, id).status == 204
  {
  }

  // ----- listings -----

  datatype Order = Ascending | Descending

  predicate InOrder(a: Section, b: Section, order: Order) {
    match order
    case Ascending => a.date <= b.date
    case Descending => a.date >= b.date
  }

  predicate Sorted(s: seq<Section>, order: Order) {
    forall i, j :: 0 <= i < j < |s| ==> InOrder(s[i], s[j], order)
  }

  /** A sorted sequence stays sorted under a new head that may precede all of it. */
  lemma SortedCons(a: Section, s: seq<Section>, order: Order)
    requires Sorted(s, order)
    requires forall k :: 0 <= k < |s| ==> InOrder(a, s[k], order)
    ensures Sorted([a] + s, order)
  {
    var r := [a] + s;
    forall i, j | 0 <= i < j < |r| ensures InOrder(r[i], r[j], order) {
      assert r[j] == s[j - 1];
      if i > 0 { assert r[i] == s[i - 1]; }
    }
  }

  /** Places `x` in a sorted sequence, before the first element it may precede. */
  function Insert(s: seq<Section>, x: Section, order: Order): (r: seq<Section>)
    requires Sorted(s, order)
    ensures Sorted(r, order)
    ensures |r| == |s| + 1
    ensures forall k :: 0 <= k < |r| ==> r[k] == x || r[k] in s
    ensures multiset(r) == multiset(s) + multiset{x}
  {
    if |s| == 0 || InOrder(x, s[0], order) then
      SortedCons(x, s, order);
      [x] + s
    else
      assert s == [s[0]] + s[1..];
      var tail := Insert(s[1..], x, order);
      assert forall k :: 0 <= k < |tail| ==> InOrder(s[0], tail[k], order);
      SortedCons(s[0], tail, order);
      [s[0]] + tail
  }

  /** Inserting adds exactly the new id. */
  lemma {:induction false} InsertIds(s: seq<Section>, x: Section, order: Order)
    requires Sorted(s, order)
    ensures Ids(Insert(s, x, order)) == Ids(s) + {x.id}
  {
    if |s| == 0 || InOrder(x, s[0], order) {
      IdsCons(x, s);
    } else {
      var tail := Insert(s[1..], x, order);
      assert Insert(s, x, order) == [s[0]] + tail;
      InsertIds(s[1..], x, order);
      assert s == [s[0]] + s[1..];
      IdsCons(s[0], s[1..]);
      IdsCons(s[0], tail);
    }
  }

  /** Inserting a section whose id is new keeps the ids unique. */
  lemma {:induction false} InsertUnique(s: seq<Section>, x: Section, order: Order)
    requires Sorted(s, order)
    requires UniqueIds(s) && x.id !in Ids(s)
    ensures UniqueIds(Insert(s, x, order))
  {
    if |s| == 0 || InOrder(x, s[0], order) {
      UniqueCons(x, s);
    } else {
      var tail := Insert(s[1..], x, order);
      assert Insert(s, x, order) == [s[0]] + tail;
      assert s == [s[0]] + s[1..];
      IdsCons(s[0], s[1..]);
      InsertUnique(s[1..], x, order);
      InsertIds(s[1..], x, order);
      UniqueCons(s[0], tail);
    }
  }

  lemma NonEmptyHasMember(s: set<int>)
    requires s != {}
    ensures exists k :: k in s
  {
    if forall k :: k !in s { assert false; }
  }

  /** What a listing selects. */
  datatype Query = InCategory(category: string) | FinishedOnly

  predicate Matches(q: Query, s: Section) {
    match q
    case InCategory(c) => s.category == c
    case FinishedOnly => s.finished
  }

  function Matching(store: Store, q: Query): set<int> {
    set k | k in store && Matches(q, store[k])
  }

  /** The rows that satisfy `q`, each once, ordered by date. Rows with equal
      dates come out in an order the database chooses; the contract leaves it open. */
  method Select(store: Store, q: Query, order: Order) returns (r: seq<Section>)
    requires WellFormed(store)
    ensures Sorted(r, order)
    ensures UniqueIds(r)
    ensures Ids(r) == Matching(store, q)
    ensures forall i :: 0 <= i < |r| ==> r[i].id in store && store[r[i].id] == r[i]
  {
    var todo := Matching(store, q);
    r := [];
    while todo != {}
      invariant todo <= Matching(store, q)
      invariant Sorted(r, order) && UniqueIds(r)
      invariant Ids(r) == Matching(store, q) - todo
      invariant forall i :: 0 <= i < |r| ==> r[i].id in store && store[r[i].id] == r[i]
      decreases todo
    {
      NonEmptyHasMember(todo);
      var k: int :| k in todo;
      InsertIds(r, store[k], order);
      InsertUnique(r, store[k], order);
      r := Insert(r, store[k], order);
      todo := todo - {k};
    }
  }

  /** `GET /sections/<category>`: exactly the sections of that category,
      oldest first. */
  method ListSections(store: Store, category: string) returns (r: seq<Section>)
    requires WellFormed(store)
    ensures Sorted(r, Ascending)
    ensures UniqueIds(r)
    ensures forall i :: 0 <= i < |r| ==> r[i].category == category && r[i] in store.Values
    ensures forall k :: k in store && store[k].category == category ==> k in Ids(r)
  {
    r := Select(store, InCategory(category), Ascending);
    forall i | 0 <= i < |r| ensures r[i].category == category && r[i] in store.Values {
      assert r[i].id in Ids(r);
    }
  }

  /** `GET /scores/`: every finished section of every category, newest first. */
  method AllFinished(store: Store) returns (r: seq<Section>)
    requires WellFormed(store)
    ensures Sorted(r, Descending)
    ensures UniqueIds(r)
    ensures forall i :: 0 <= i < |r| ==> r[i].finished && r[i] in store.Values
    ensures forall k :: k in store && store[k].finished ==> k in Ids(r)
  {
    r := Select(store, FinishedOnly, Descending);
    forall i | 0 <= i < |r| ensures r[i].finished && r[i] in store.Values {
      assert r[i].id in Ids(r);
    }
  }
}

=== FILE: sections.dfy ===
/** The Section record of the backend database, and the two ways a JSON
    body turns into one: the constructor call of a create (keyword
    arguments over column defaults) and the key-by-key assignment of an
    update. */
module Sections {
  import opened Wrappers

  /** Timestamps are abstract: only their order matters. */
  type Date = int

  /** One competition entry. `codeA`..`scoreB` serve team categories,
      `gender` and `positions` serve athletics; a column never written is `None`. */
  datatype Section = Section(
    id: int,
    category: string,
    date: Date,
    finished: bool,
    codeA: Option<string>,
    codeB: Option<string>,
    scoreA: int,
    scoreB: int,
    gender: Option<string>,
    positions: Option<seq<string>>)

  /** A JSON request body: one entry per key the client sent, `None` for an absent key. */
  datatype Body = Body(
    category: Option<string>,
    date: Option<Date>,
    finished: Option<bool>,
    codeA: Option<string>,
    codeB: Option<string>,
    scoreA: Option<int>,
    scoreB: Option<int>,
    gender: Option<string>,
    positions: Option<seq<string>>)

  const EmptyBody := Body(None, None, None, None, None, None, None, None, None)

  /** A body that is also a valid keyword-argument list next to the explicit
      `category=` of the create route: passing `category` twice is a Python error. */
  predicate CreatableBody(body: Body) {
    body.category.None?
  }

  /** The row a create with an empty payload stores: every column at its default. */
  function Blank(id: int, category: string, now: Date): Section {
    Section(id, category, now, false, None, None, 0, 0, None, None)
  }

  function Overwrite<T>(key: Option<T>, current: T): T {
    if key.Some? then key.value else current
  }

  function OverwriteOpt<T>(key: Option<T>, current: Option<T>): Option<T> {
    if key.Some? then key else current
  }

  /** The update route's write: each key present in the body overwrites the
      column of that name, every other column keeps its value. Nothing here
      looks at `finished`. */
  function Apply(sec: Section, body: Body): (r: Section)
    ensures r.id == sec.id
    ensures body.finished.Some? ==> r.finished == body.finished.value
    ensures body.finished.None? ==> r.finished == sec.finished
    ensures body.scoreA.Some? ==> r.scoreA == body.scoreA.value
    ensures body.scoreA.None? ==> r.scoreA == sec.scoreA
    ensures body.scoreB.Some? ==> r.scoreB == body.scoreB.value
    ensures body.scoreB.None? ==> r.scoreB == sec.scoreB
    ensures r.category == (if body.category.Some? then body.category.value else sec.category)
    ensures r.date == (if body.date.Some? then body.date.value else sec.date)
    ensures r.codeA == (if body.codeA.Some? then body.codeA else sec.codeA)
    ensures r.codeB == (if body.codeB.Some? then body.codeB else sec.codeB)
    ensures r.gender == (if body.gender.Some? then body.gender else sec.gender)
    ensures r.positions == (if body.positions.Some? then body.positions else sec.positions)
  {
    Section(sec.id,
            Overwrite(body.category, sec.category),
            Overwrite(body.date, sec.date),
            Overwrite(body.finished, sec.finished),
            OverwriteOpt(body.codeA, sec.codeA),
            OverwriteOpt(body.codeB, sec.codeB),
            Overwrite(body.scoreA, sec.scoreA),
            Overwrite(body.scoreB, sec.scoreB),
            OverwriteOpt(body.gender, sec.gender),
            OverwriteOpt(body.positions, sec.positions))
  }

  /** The create route's constructor call: the URL category, the payload's
      columns as keyword arguments, and the column defaults (`finished` false, scores 0, `date` the
      insertion time `now`) for every column the payload leaves out. */
  function NewSection(id: int, category: string, body: Body, now: Date): (s: Section)
    requires CreatableBody(body)
    ensures s.id == id && s.category == category
    ensures body.finished.None? ==> !s.finished
    ensures body.scoreA.None? ==> s.scoreA == 0
    ensures body.scoreB.None? ==> s.scoreB == 0
    ensures body.date.None? ==> s.date == now
    ensures body.codeA.None? ==> s.codeA.None?
    ensures body.codeB.None? ==> s.codeB.None?
    ensures body.gender.None? ==> s.gender.None?
    ensures body.positions.None? ==> s.positions.None?
    ensures s == Apply(Blank(id, category, now), body)
  {
    Section(id, category, body.date.GetOr(now), body.finished.GetOr(false),
            body.codeA, body.codeB, body.scoreA.GetOr(0), body.scoreB.GetOr(0),
            body.gender, body.positions)
  }

  /** Two bodies sent one after the other, as one body: a later key wins. */
  function Merge(first: Body, second: Body): (m: Body)
    ensures first == EmptyBody ==> m == second
    ensures second == EmptyBody ==> m == first
  {
    Body(OverwriteOpt(second.category, first.category),
         OverwriteOpt(second.date, first.date),
         OverwriteOpt(second.finished, first.finished),
         OverwriteOpt(second.codeA, first.codeA),
         OverwriteOpt(second.codeB, first.codeB),
         OverwriteOpt(second.scoreA, first.scoreA),
         OverwriteOpt(second.scoreB, first.scoreB),
         OverwriteOpt(second.gender, first.gender),
         OverwriteOpt(second.positions, first.positions))
  }

  // ----- sequences of sections -----

  /** The ids a sequence of sections holds. */
  function Ids(s: seq<Section>): set<int> {
    set i | 0 <= i < |s| :: s[i].id
  }

  predicate UniqueIds(s: seq<Section>) {
    forall i, j :: 0 <= i < j < |s| ==> s[i].id != s[j].id
  }

  lemma IdsCons(x: Section, s: seq<Section>)
    ensures Ids([x] + s) == {x.id} + Ids(s)
  {
    var xs := [x] + s;
    forall y | y in Ids(s) ensures y in Ids(xs) {
      var i :| 0 <= i < |s| && s[i].id == y;
      assert xs[i + 1] == s[i];
    }
    assert xs[0] == x;
    forall y | y in Ids(xs) ensures y in {x.id} + Ids(s) {
      var i :| 0 <= i < |xs| && xs[i].id == y;
      if i > 0 { assert xs[i] == s[i - 1]; }
    }
  }

  lemma UniqueCons(a: Section, s: seq<Section>)
    requires UniqueIds(s)
    requires a.id !in Ids(s)
    ensures UniqueIds([a] + s)
  {
    var r := [a] + s;
    forall i, j | 0 <= i < j < |r| ensures r[i].id != r[j].id {
      assert r[j] == s[j - 1];
      if i > 0 { assert r[i] == s[i - 1]; }
    }
  }

  /** An empty body changes nothing. */
  lemma ApplyEmpty(sec: Section)
    ensures Apply(sec, EmptyBody) == sec
  {
  }

  /** Sending the same body twice is the same as sending it once. */
  lemma ApplyIdempotent(sec: Section, body: Body)
    ensures Apply(Apply(sec, body), body) == Apply(sec, body)
  {
  }

  /** Two updates in a row equal one update with the merged body. */
  lemma ApplyMerge(sec: Section, first: Body, second: Body)
    ensures Apply(Apply(sec, first), second) == Apply(sec, Merge(first, second))
  {
  }

  /** Updating a freshly created row is creating it with the merged payload. */
  lemma CreateThenUpdate(id: int, category: string, first: Body, second: Body, now: Date)
    requires CreatableBody(first) && CreatableBody(second)
    ensures CreatableBody(Merge(first, second))
    ensures Apply(NewSection(id, category, first, now), second)
         == NewSection(id, category, Merge(first, second), now)
  {
    ApplyMerge(Blank(id, category, now), first, second);
  }

  /** A finished section still takes a score: the server has no finished-lock. */
  lemma NoFinishedLock(sec: Section, v: int)
    requires sec.finished
    ensures Apply(sec, EmptyBody.(scoreA := Some(v))).scoreA == v
    ensures Apply(sec, EmptyBody.(scoreA := Some(v))).finished
  {
  }
}

=== FILE: users.dfy ===
/** The user registry of the backend: registration, credential check and
    login. Password hashing is salted and belongs to a library, so it enters
    as a pair of opaque functions together with the salt a registration uses. */
module UserRegistry {
  import opened Wrappers

  /** A stored user; `password` holds the hash, never the submitted text. */
  datatype User = User(id: int, email: string, password: string, isAdmin: bool)

  /** The user table, keyed by its unique email column. */
  type Registry = map<string, User>

  /** Each user sits under its own email, and user ids are a primary key. */
  predicate WellFormed(reg: Registry) {
    && (forall e :: e in reg ==> reg[e].email == e)
    && (forall e1, e2 :: e1 in reg && e2 in reg && e1 != e2 ==> reg[e1].id != reg[e2].id)
  }

  predicate IdUnused(reg: Registry, id: int) {
    forall e :: e in reg ==> reg[e].id != id
  }

  /** `hash(salt, password)` makes a stored hash; `check(stored, password)` tests one. */
  datatype Hasher = Hasher(hash: (string, string) -> string, check: (string, string) -> bool)

  /** The library's promise: a password checks against its own hash. */
  ghost predicate Sound(h: Hasher) {
    forall salt, pw :: h.check(h.hash(salt, pw), pw)
  }

  /** The JSON body of a registration; `None` is a missing key. */
  datatype Registration = Registration(email: Option<string>, password: Option<string>, isAdmin: Option<bool>)

  datatype RegisterReply = RegisterReply(registry: Registry, status: int)

  /** `POST /api/auth/register`. The email key is read first (missing: a `KeyError`, 500),
      then checked for a duplicate (400), then the password key is read
      (missing: 500); only then is one user added (201). */
  function Register(reg: Registry, req: Registration, h: Hasher, salt: string, freshId: int): (r: RegisterReply)
    requires WellFormed(reg)
    requires IdUnused(reg, freshId)
    ensures WellFormed(r.registry)
    ensures r.status in {201, 400, 500}
    ensures r.status != 201 ==> r.registry == reg
    ensures req.email.None? ==> r.status == 500
    ensures req.email.Some? && req.email.value in reg ==> r.status == 400
    ensures req.email.Some? && req.email.value !in reg && req.password.None? ==> r.status == 500
    ensures r.status == 201 <==> req.email.Some? && req.email.value !in reg && req.password.Some?
    ensures r.status == 201 ==>
      var e := req.email.value;
      && r.registry.Keys == reg.Keys + {e}
      && (forall e' :: e' in reg ==> r.registry[e'] == reg[e'])
      && r.registry[e].id == freshId
      && r.registry[e].password == h.hash(salt, req.password.value)
      && r.registry[e].isAdmin == (req.isAdmin.Some? && req.isAdmin.value)
  {
    if req.email.None? then RegisterReply(reg, 500)
    else if req.email.value in reg then RegisterReply(reg, 400)
    else if req.password.None? then RegisterReply(reg, 500)
    else
      var e := req.email.value;
      RegisterReply(reg[e := User(freshId, e, h.hash(salt, req.password.value), req.isAdmin.GetOr(false))], 201)
  }

  /** The credential check: the user with that email, when the password
      checks against the stored hash; nothing otherwise. */
  function Verify(reg: Registry, email: string, password: string, h: Hasher): (r: Option<User>)
    requires WellFormed(reg)
    ensures r.Some? <==> email in reg && h.check(reg[email].password, password)
    ensures r.Some? ==> r.value.email == email && r.value in reg.Values
  {
    if email in reg && h.check(reg[email].password, password) then Some(reg[email]) else None
  }

  datatype LoginReply = Unauthorized | Profile(email: string, isAdmin: bool)

  /** `GET /api/auth/login`: a caller whose credentials do not verify gets 401; an
      authenticated one gets back exactly its email and admin flag. */
  function Login(reg: Registry, email: string, password: string, h: Hasher): (r: LoginReply)
    requires WellFormed(reg)
    ensures r.Profile? <==> Verify(reg, email, password, h).Some?
    ensures r.Profile? ==> r.email == email && r.isAdmin == reg[email].isAdmin
  {
    match Verify(reg, email, password, h)
    case None => Unauthorized
    case Some(u) => Profile(u.email, u.isAdmin)
  }

  /** A user who just registered can log in with the same password, and is
      not an admin unless the registration said so. */
  lemma RegisterThenLogin(reg: Registry, email: string, password: string, h: Hasher, salt: string, freshId: int)
    requires WellFormed(reg) && IdUnused(reg, freshId) && Sound(h)
    requires email !in reg
    ensures var r := Register(reg, Registration(Some(email), Some(password), None), h, salt, freshId);
      && r.status == 201
      && Login(r.registry, email, password, h) == Profile(email, false)
  {
    var r := Register(reg, Registration(Some(email), Some(password), None), h, salt, freshId);
    assert h.check(h.hash(salt, password), password);
    assert r.registry[email].password == h.hash(salt, password);
  }

  /** A second registration of the same email is refused, whatever else it says. */
  lemma RegisterTwice(reg: Registry, req: Registration, again: Registration, h: Hasher, salt: string, salt': string, id: int, id': int)
    requires WellFormed(reg) && IdUnused(reg, id) && req.email.Some? && req.password.Some? && req.email.value !in reg
    requires again.email == req.email && id' != id && IdUnused(reg, id')
    ensures var r := Register(reg, req, h, salt, id);
      IdUnused(r.registry, id') && Register(r.registry, again, h, salt', id').status == 400
  {
  }
}

=== FILE: wrappers.dfy ===
/** Optional values: a JSON key that may be absent, a lookup that may fail. */
module Wrappers {

  datatype Option<+T> = None | Some(value: T) {

    /** The wrapped value, or `default` when there is none. */
    function GetOr(default: T): (r: T)
      ensures Some? ==> r == value
      ensures None? ==> r == default
    {
      match this
      case Some(v) => v
      case None => default
    }
  }
}
